=== FILE: README.md ===
# ESIntegTestCase decision logic in Dafny

This project models the decision logic of Elasticsearch's integration-test base class,
`ESIntegTestCase`. Most of that class drives a live cluster over the network. Inside it are
small sequential procedures, and the model states and proves what they do:

- **ClusterScopes** (`scopes.dfy`):
  - the `ClusterScope` annotation walk up the superclass chain;
  - the configuration getters with their defaults;
  - `buildTestCluster`'s choice between an external and an internal cluster;
  - the node prefix and the data-node range.
- **ClusterRegistry** (`registry.dfy`):
  - the static map from test class to cluster, with the set of clusters whose close has been attempted;
  - `buildAndPutCluster`, `clearClusters`, `afterInternal`, `afterClass`, and the cluster step of `beforeInternal`;
  - the suite- and test-scope lifecycles across two tests.
- **HealthGate** (`health.dfy`): the requests sent by `ensureColor` and `waitForRelocation`, and how they judge the health reply.
- **StateConsistency** (`consistency.dfy`): `ensureClusterStateConsistency`, which holds every node on the master's version and under the same master to the master's state.
- **TestHelpers** (`helpers.dfy`):
  - `NumShards` in 32-bit int arithmetic;
  - `numberOfShards`, `maximumNumberOfReplicas` and `numberOfReplicas`;
  - the rollback in `createIndex`;
  - `assertResultsAndLogOnFailure`.
- **IndexPlan** (`index_plan.dfy`), the pure decisions of `indexRandom`:
  - the map from index to types;
  - decoy injection, and the shuffle;
  - the choice between one-by-one and bulk indexing, and the bulk chunking;
  - reconciling asynchronous errors, where rejections are retried once and every other error is kept;
  - deleting the decoys.
- **InFlight** (`in_flight.dfy`): `postIndexAsyncActions`, which may start an admin operation and then waits on randomly chosen outstanding operations until at most 150 remain.
- **IndexRandom** (`index_random.dfy`): the whole `indexRandom` call, composed from the above.

Two kinds of input become explicit arguments:

- **Random draws.** `frequently()`, `rarely()`, `between`, the shuffle and the coins become oracle arguments: booleans, raw `nat` draws reduced by `Common.Between`, or streams `nat -> X`.
- **Cluster answers.** Every answer the cluster gives is an argument too:
  - the outcome of each index call;
  - each bulk failure flag;
  - each retry;
  - each delete result;
  - each health reply.

Every theorem about the call sequences therefore holds for every possible sequence of random choices and
replies. The health-gate guarantee is the exception: it is stated against a server that answers honestly (`HealthGate.ServerReply`).
A Java exception or failed assertion becomes a `Fail`/`Err` value carrying the reason.

## Model

Source paths are relative to the repository root.

| member | source | states |
|---|---|---|
| ClusterScopes.GetAnnotation | test/framework/src/main/java/org/elasticsearch/test/ESIntegTestCase.java:1557-1566 | The walk returns an annotation exactly when some class below the root (Object or the base class) is annotated with no annotated class before it, and then returns that nearest annotation |
| ClusterScopes.ResolveConfig | test/framework/src/main/java/org/elasticsearch/test/ESIntegTestCase.java:1568-1608 | With no reachable annotation the config is SUITE scope, dedicated masters and auto-managed masters allowed, node count -1 and the cluster defaults. Otherwise every attribute is the nearest annotation's, except that a min/max node bound of -1 falls back to the default |
| ClusterScopes.UnannotatedSubclassInherits | test/framework/src/main/java/org/elasticsearch/test/ESIntegTestCase.java:1557-1566 | Adding an unannotated subclass in front of a chain does not change the resolved configuration |
| ClusterScopes.AnnotatedSubclassOverrides | test/framework/src/main/java/org/elasticsearch/test/ESIntegTestCase.java:1561-1564 | An annotation on the test class itself decides the configuration whatever its superclasses carry |
| ClusterScopes.RootEndsAnnotationWalk | test/framework/src/main/java/org/elasticsearch/test/ESIntegTestCase.java:1557-1565 | Wherever the root sits in a chain, the walk returns the same annotation as on the chain cut just after the root |
| ClusterScopes.RootEndsWalk | test/framework/src/main/java/org/elasticsearch/test/ESIntegTestCase.java:1558-1560 | Classes above Object or the base class never change the resolved configuration |
| ClusterScopes.NodePrefix | test/framework/src/main/java/org/elasticsearch/test/ESIntegTestCase.java:1689-1700 | TEST scope gets the prefix "node_t" and SUITE scope gets "node_s", in both directions |
| ClusterScopes.DataNodeRange | test/framework/src/main/java/org/elasticsearch/test/ESIntegTestCase.java:1703-1711 | A non-negative fixed data-node count pins both bounds; otherwise the resolved min and max are used |
| ClusterScopes.FixedCountIgnoresBounds | test/framework/src/main/java/org/elasticsearch/test/ESIntegTestCase.java:1706-1707 | With a fixed count, the annotated min and max have no effect on the range |
| ClusterScopes.BuildTestCluster | test/framework/src/main/java/org/elasticsearch/test/ESIntegTestCase.java:1676-1727 | Building fails exactly when an external cluster is configured and either the scope is TEST or the cluster name is missing. TEST scope reports the scope error, and SUITE scope reports the missing name. The external cluster is used iff addresses are set and not ignored, and it gets exactly the configured addresses and name. An internal cluster carries the seed, the scope's prefix, the data-node range and the config's flags |
| ClusterRegistry.ClearClusters | test/framework/src/main/java/org/elasticsearch/test/ESIntegTestCase.java:509-518 | Every cached cluster gets a close attempt. Success means the map is empty and the REST client closed, and it happens iff no cluster close throws (or nothing was cached) and the REST client close does not throw (or no client was open). A throwing cluster close fails with the close error and leaves the map and the client as they were. A throwing REST client close comes after the map was emptied, fails with its own error and leaves the client open. Registry validity is kept |
| ClusterRegistry.Acquire | test/framework/src/main/java/org/elasticsearch/test/ESIntegTestCase.java:493-505 | After the clear, the call succeeds iff SUITE scope finds a cached cluster or the build succeeds. SUITE scope returns the cached cluster unchanged, and TEST scope closes it and registers a fresh id. A failed build leaves the map empty and reports the build error |
| ClusterRegistry.BuildAndPutCluster | test/framework/src/main/java/org/elasticsearch/test/ESIntegTestCase.java:489-507 | On success the registry holds exactly one entry, the current class mapped to the returned cluster, and the REST client is closed. Every other cached cluster has been closed, and no close is ever undone. SUITE reuses the cached cluster without closing it, while TEST closes the cached one and registers a fresh id. Success holds iff clearing the others does not throw and there is a cluster to reuse or the build succeeded. A throwing cluster close leaves the others mapped and reports the close error. A throwing REST client close leaves the map empty and reports that error. A failed build leaves the map empty and reports the build error |
| ClusterRegistry.FirstFailure | test/framework/src/main/java/org/elasticsearch/test/ESIntegTestCase.java:528-546 | The teardown steps pass iff every pre-close check passes, the close (when it runs) returns normally and the after-test check passes. Otherwise the reported failure is the first one in the order the code runs them: leftover metadata (outside TEST scope only), cluster size, cluster state, beforeIndexDeletion, wipe, close, after-test |
| ClusterRegistry.AfterInternal | test/framework/src/main/java/org/elasticsearch/test/ESIntegTestCase.java:520-560 | A disruption-scheme reset that throws on an internal cluster fails the teardown and leaves the registry as it was. Otherwise TEST scope always closes every cached cluster through the final clear, even when the checks fail. It empties the map unless a cluster close throws, and a throwing clear reports its own error in place of any check failure. The teardown itself closes the current cluster when the pre-close checks pass and the class is finished or the scope is TEST. SUITE scope never changes the map, and a SUITE test that is not the last leaves the registry untouched. The call passes iff the reset, the final clear and every check pass. Otherwise it reports the first failing check in the order of FirstFailure |
| ClusterRegistry.AfterClass | test/framework/src/main/java/org/elasticsearch/test/ESIntegTestCase.java:1959-1974 | A class without a suite-scoped instance only clears the registry: it closes every cached cluster and succeeds iff no close throws. A suite-scoped instance runs exactly the full teardown, with the same registry and outcome, unless the static-state check fails. That check fails the call exactly when the teardown succeeded and the static state is dirty |
| ClusterRegistry.BeforeInternal | test/framework/src/main/java/org/elasticsearch/test/ESIntegTestCase.java:343-363 | The scope comes from the annotation walk. A SUITE cluster that is already cached is returned as is. A newly built internal cluster carries the resolved scope and uses the suite seed in SUITE scope and the fresh test seed in TEST scope |
| ClusterRegistry.SuiteClusterSurvivesBetweenTests | test/framework/src/main/java/org/elasticsearch/test/ESIntegTestCase.java:491-498 | In SUITE scope, the second test receives the very cluster the first test received, whatever the first test's checks said, and it was not closed in between |
| ClusterRegistry.TestClusterRebuiltEachTest | test/framework/src/main/java/org/elasticsearch/test/ESIntegTestCase.java:499-502 | In TEST scope, the first test's cluster is closed by the time the second test gets its cluster, and the two are distinct |
| StateConsistency.CheckFrom | test/framework/src/main/java/org/elasticsearch/test/ESIntegTestCase.java:1009-1036 | The scan is consistent iff every node passes. A reported mismatch names the first failing node, which is comparable and disagrees, and the first differing aspect in UUID, size, content order. A null master id is reported only where the versions match |
| StateConsistency.EnsureClusterStateConsistency | test/framework/src/main/java/org/elasticsearch/test/ESIntegTestCase.java:999-1041 | The check is skipped iff there is no cluster or it is empty. Otherwise it is consistent iff every node on the master's version and under the master's id agrees with the master in UUID, size and content, and no node on the master's version meets a null master id (the source's dereference of that null id fails the check) |
| StateConsistency.SkewedNodesNeverReported | test/framework/src/main/java/org/elasticsearch/test/ESIntegTestCase.java:1019 | Nodes on a different version from the master are never held to its state |
| StateConsistency.OtherMasterNeverReported | test/framework/src/main/java/org/elasticsearch/test/ESIntegTestCase.java:1020 | A node following another master is never the reported mismatch, whatever state it holds |
| StateConsistency.AllCopiesConsistent | test/framework/src/main/java/org/elasticsearch/test/ESIntegTestCase.java:1021-1029 | A cluster of exact copies of the master's state is consistent |
| HealthGate.StatusValueMatchesHealthOrder | test/framework/src/main/java/org/elasticsearch/test/ESIntegTestCase.java:879-880 | Comparing status values with `<=` is exactly "at least as healthy as" under GREEN < YELLOW < RED |
| HealthGate.EnsureColorRequest | test/framework/src/main/java/org/elasticsearch/test/ESIntegTestCase.java:858-869 | A cluster satisfies the request iff it is at least as healthy as requested, has no relocating shards, has no initializing shards when asked, and has exactly the cluster size in nodes |
| HealthGate.EnsureColor | test/framework/src/main/java/org/elasticsearch/test/ESIntegTestCase.java:851-883 | The call succeeds iff the reply did not time out and its status is at least as healthy as requested, and it then returns that status. A timeout is reported as a timeout |
| HealthGate.EnsureColorGuarantees | test/framework/src/main/java/org/elasticsearch/test/ESIntegTestCase.java:858-883 | Against a server that answers honestly, success means the cluster has the requested health, no relocating shards, exactly the expected nodes and, when asked, no initializing shards. The "worse than requested" failure never occurs |
| HealthGate.EnsureColorMonotone | test/framework/src/main/java/org/elasticsearch/test/ESIntegTestCase.java:879-880 | A reply that passes for a healthier requested status also passes for a less healthy one |
| HealthGate.WaitForRelocationRequest | test/framework/src/main/java/org/elasticsearch/test/ESIntegTestCase.java:896-900 | The cluster satisfies the request iff no shard is relocating and, when a status is given, the cluster is at least that healthy |
| HealthGate.WaitForRelocation | test/framework/src/main/java/org/elasticsearch/test/ESIntegTestCase.java:896-912 | The call succeeds iff there is no timeout and, when a status is given, the observed status is exactly that one |
| HealthGate.RelocationDemandsExactStatus | test/framework/src/main/java/org/elasticsearch/test/ESIntegTestCase.java:899-909 | A GREEN cluster with nothing relocating satisfies the server's wait for YELLOW, yet the call fails |
| TestHelpers.MakeNumShards | test/framework/src/main/java/org/elasticsearch/test/ESIntegTestCase.java:1914-1926 | Each field is a 32-bit int. When no intermediate result overflows, the data copies are the replicas plus one and the total is primaries times copies |
| TestHelpers.ShardTotalsExactForRealisticIndices | test/framework/src/main/java/org/elasticsearch/test/ESIntegTestCase.java:1921-1924 | For up to 1024 primaries and fewer than a million replicas nothing wraps. The total is then at least the primaries, and equals them iff there are no replicas |
| TestHelpers.MaxReplicasWrapCopies | test/framework/src/main/java/org/elasticsearch/test/ESIntegTestCase.java:1923 | With Integer.MAX_VALUE replicas the copy count wraps to Integer.MIN_VALUE |
| TestHelpers.NumberOfShards | test/framework/src/main/java/org/elasticsearch/test/ESIntegTestCase.java:619-629 | The default shard count always lies between 1 and 10 |
| TestHelpers.MaximumNumberOfReplicas | test/framework/src/main/java/org/elasticsearch/test/ESIntegTestCase.java:635-639 | The maximum replica count is below the data-node count, and is zero iff there is at most one data node. It is at most one when frequently() holds, and otherwise all other data nodes |
| TestHelpers.ReplicasFitOnDataNodes | test/framework/src/main/java/org/elasticsearch/test/ESIntegTestCase.java:641-643 | Whatever is drawn, a primary and its replicas fit on distinct data nodes |
| TestHelpers.CreateFrom | test/framework/src/main/java/org/elasticsearch/test/ESIntegTestCase.java:687-699 | Creation from a given position succeeds iff every remaining create is acknowledged. Otherwise it stops at the first unacknowledged one and wipes exactly the names before it |
| TestHelpers.CreateIndex | test/framework/src/main/java/org/elasticsearch/test/ESIntegTestCase.java:685-700 | Every name is created iff every create is acknowledged. On the first failure exactly the names created so far are wiped |
| TestHelpers.FirstFailureWipesNothing | test/framework/src/main/java/org/elasticsearch/test/ESIntegTestCase.java:695-697 | A failure on the first name wipes nothing |
| TestHelpers.AssertResultsAndLogOnFailure | test/framework/src/main/java/org/elasticsearch/test/ESIntegTestCase.java:780-795 | The check passes iff the hit count is exact and equals the expected one. A failure reports the count seen, whether it was a lower bound, and the count expected |
| TestHelpers.LowerBoundNeverConfirms | test/framework/src/main/java/org/elasticsearch/test/ESIntegTestCase.java:782 | A lower-bound count fails even when its value matches |
| IndexPlan.IndicesAndTypes | test/framework/src/main/java/org/elasticsearch/test/ESIntegTestCase.java:1296-1300 | The keys are exactly the batch's indices. Every type listed for an index is written to it by some request, and every request's type is listed under its index |
| IndexPlan.MakeDecoys | test/framework/src/main/java/org/elasticsearch/test/ESIntegTestCase.java:1307-1317 | There is one decoy per pick. The i-th decoy has a bogus id with counter value `counter + i + 1` and targets an (index, type) pair some request of the batch already writes, that is, a type listed under its index in the index-to-types map |
| IndexPlan.InjectDecoys | test/framework/src/main/java/org/elasticsearch/test/ESIntegTestCase.java:1301-1318 | Without the coin, a non-empty batch and `dummyDocuments`, the batch is unchanged. Otherwise it gains between 1 and twice its size decoys, appended after the caller's requests. Each decoy has an empty source and routing equal to its id, an existing (index, type) pair and a distinct id. The counter advances by the decoy count and the target indices are unchanged |
| IndexPlan.ShuffleDown | test/framework/src/main/java/org/elasticsearch/test/ESIntegTestCase.java:1319 | Each swap pass keeps the batch's length and its multiset of requests |
| IndexPlan.Shuffle | test/framework/src/main/java/org/elasticsearch/test/ESIntegTestCase.java:1319 | The shuffle is a permutation, whatever is drawn |
| IndexPlan.PermutationKeepsTargets | test/framework/src/main/java/org/elasticsearch/test/ESIntegTestCase.java:1319-1323 | A permuted batch writes to the same set of indices |
| IndexPlan.ChooseStrategy | test/framework/src/main/java/org/elasticsearch/test/ESIntegTestCase.java:1324-1341 | Batches of 3000 or more always go bulk. Below 300 they go bulk iff frequently() fails, and in between iff rarely() fails. The chunk size lies in 1..1000: it is the drawn fraction when that is in range, 1 when the fraction is 0, and 1000 when the fraction exceeds 1000. A one-by-one run is asynchronous iff its draw says so |
| IndexPlan.Partition | test/framework/src/main/java/org/elasticsearch/test/ESIntegTestCase.java:1340-1341 | The chunks concatenate back to the batch. Each is non-empty and at most the chunk size, and all but the last are full |
| IndexPlan.UnwrapCause | test/framework/src/main/java/org/elasticsearch/test/ESIntegTestCase.java:1357 | The unwrapped cause is never a wrapper, and a cause that is not wrapped is its own unwrapped cause |
| IndexPlan.UnwrapOfWrap | test/framework/src/main/java/org/elasticsearch/test/ESIntegTestCase.java:1357 | Unwrapping a failure wrapped in any number of layers gives back exactly that failure. So a wrapped rejection is retried, and a wrapped other failure is kept |
| IndexPlan.KeptAndRetriedSplitErrors | test/framework/src/main/java/org/elasticsearch/test/ESIntegTestCase.java:1355-1363 | Every error is kept or retried and never both. Kept errors are real errors, not rejections, drawn from the list. Nothing is kept iff every error is a rejection |
| IndexPlan.ReconcileSucceedsIff | test/framework/src/main/java/org/elasticsearch/test/ESIntegTestCase.java:1356-1362 | Reconciliation gets through the list iff every one of the re-executions it needs succeeds |
| IndexPlan.ReconcileMatchesFilters | test/framework/src/main/java/org/elasticsearch/test/ESIntegTestCase.java:1355-1362 | A completed reconciliation re-executed exactly the rejected requests, once each and in order. It kept exactly the other errors, in order |
| IndexPlan.ReconcileStopsAtFailedRetry | test/framework/src/main/java/org/elasticsearch/test/ESIntegTestCase.java:1357-1358 | A failed re-execution is that of the next rejected request, after every earlier re-execution succeeded, and it stops the call |
| IndexPlan.DeleteDecoysFrom | test/framework/src/main/java/org/elasticsearch/test/ESIntegTestCase.java:1366-1370 | Deletes are sent in order, one per decoy. The loop passes iff every reply is DELETED. A failure names the first decoy whose delete did not report DELETED, and nothing after it is sent |
| IndexPlan.DeleteDecoys | test/framework/src/main/java/org/elasticsearch/test/ESIntegTestCase.java:1364-1371 | All decoys are deleted iff every delete reports DELETED. Every delete is routed by the decoy's own id, and the deletes go out in decoy order. A failure names the first decoy whose delete did not report DELETED: every earlier delete reported DELETED, and nothing after it was sent |
| InFlight.SideAction | test/framework/src/main/java/org/elasticsearch/test/ESIntegTestCase.java:1411-1430 | Any admin call needs the outer rarely() and targets the batch's indices. The draws decide which call, and nothing is started iff the outer draw fails or none of refresh, allowed flush and merge is drawn. The refresh draw wins over every other. Next comes a plain or synced flush, when `maybeFlush` holds and its draw succeeds. Last comes a force-merge to 1 to 10 segments that flushes only when `maybeFlush` allows it |
| InFlight.PostIndexAsyncActions | test/framework/src/main/java/org/elasticsearch/test/ESIntegTestCase.java:1409-1435 | At most 150 operations remain outstanding afterwards. Every operation outstanding before or started now is either still outstanding or awaited, none lost or duplicated. Nothing is awaited when at most 150 are outstanding, and otherwise exactly 150 remain. The admin call is the one SideAction picks |
| IndexRandom.TicketsConserved | test/framework/src/main/java/org/elasticsearch/test/ESIntegTestCase.java:1327-1330 | After one document and its in-flight step, every operation started so far is either outstanding or awaited |
| IndexRandom.Advance | test/framework/src/main/java/org/elasticsearch/test/ESIntegTestCase.java:1327-1336 | Sending one more document keeps the invariants of the one-by-one loop. The documents went in order, asynchronous failures are recorded in order, and no more than 150 operations are ever outstanding. No operation is lost, and admin calls target the batch's indices and flush only when allowed |
| IndexRandom.RunOneByOne | test/framework/src/main/java/org/elasticsearch/test/ESIntegTestCase.java:1325-1338 | An asynchronous run always goes through every document. A synchronous run stops at the first failing document, right after submitting it and before its in-flight step, and every earlier call succeeded |
| IndexRandom.FirstFailedBulk | test/framework/src/main/java/org/elasticsearch/test/ESIntegTestCase.java:1343-1350 | No bulk request fails iff none reports failures. Otherwise the first failing one is found, and every earlier one succeeded |
| IndexRandom.SendInBulk | test/framework/src/main/java/org/elasticsearch/test/ESIntegTestCase.java:1339-1351 | The bulk path passes iff no chunk reports item failures. It sends exactly the chunks up to the first failing one, and that chunk is reported |
| IndexRandom.SendOneByOne | test/framework/src/main/java/org/elasticsearch/test/ESIntegTestCase.java:1325-1338 | The one-by-one path passes iff it is asynchronous or every synchronous call succeeds. A synchronous failure is the first failing call, with its own error, and every earlier call succeeded |
| IndexRandom.Send | test/framework/src/main/java/org/elasticsearch/test/ESIntegTestCase.java:1324-1354 | The send passes iff every bulk chunk is free of item failures, or every synchronous index call succeeds; an asynchronous send always passes. A passing bulk send covered the batch in exactly its chunks. A passing one-by-one send submitted the whole batch, awaited every operation it started, and hands on the asynchronous failures in order. A failure is the first failing bulk chunk, after which nothing is sent, or the first failing synchronous call with that call's own error, after which nothing is sent |
| IndexRandom.Retract | test/framework/src/main/java/org/elasticsearch/test/ESIntegTestCase.java:1364-1376 | After the retries, the call passes iff every decoy delete reports DELETED and the forced refresh (if any) succeeds. A pass sent one delete per decoy, in order. A failure is the first delete that did not report DELETED, with every earlier one deleted, or else the refresh |
| IndexRandom.Finish | test/framework/src/main/java/org/elasticsearch/test/ESIntegTestCase.java:1355-1376 | The closing phase passes iff every re-execution of a rejected write succeeds, no other error remains, every decoy delete reports DELETED, and the forced refresh (if any) succeeds. A pass retried exactly the rejected writes and issued the refresh iff asked for. A failure is the first failing step, in that order: the first failing re-execution, then the remaining non-rejection errors, then the first delete that does not report DELETED, then the refresh |
| IndexRandom.Prepare | test/framework/src/main/java/org/elasticsearch/test/ESIntegTestCase.java:1296-1319 | The batch sent is a permutation of the caller's requests plus the decoy requests, and writes to the same indices. Decoys exist iff they are injected, have bogus ids on existing (index, type) pairs, and advance the id counter by their number |
| IndexRandom.Execute | test/framework/src/main/java/org/elasticsearch/test/ESIntegTestCase.java:1320-1377 | Sending a prepared batch and closing the call: it passes iff the send passes and the closing phase passes on the errors the send hands on, and it reports the first failure |
| IndexRandom.IndexRandom | test/framework/src/main/java/org/elasticsearch/test/ESIntegTestCase.java:1293-1377 | The call sends the prepared batch by the chosen strategy, never leaving more than 150 operations in flight. Bulk chunks cover the batch, and one by one submits every document and awaits every started operation. Flushes happen only when allowed. The call passes iff the send passes and the closing phase passes on the errors the send hands on. A send failure is reported as such, and otherwise the first failing closing step is. On success exactly the rejected writes were retried, all decoys deleted, and the refresh issued iff asked for |

## Left out

- Every real client call is abstracted: index, bulk, refresh, flush, synced flush, force-merge, health, cluster state and delete. Their answers are inputs, and the model never performs them.
- Other I/O and infrastructure is not modelled: REST client construction, `buildExternalCluster` address parsing, node settings, mock plugins, temporary directories and logging.
- `CountDownLatch`, `CopyOnWriteArrayList` and listener callbacks are not modelled. An outstanding operation is a ticket in a sequence, and awaiting it removes it. Asynchronous errors are taken in submission order, whereas the source records them in completion order.
- Decoys are deleted in injection order. The source iterates a `HashSet`, so its order is unspecified.
- A decoy's random (index, type) choice is a position into the batch, not a map entry followed by a type. Both reach exactly the pairs present in the batch, with different distributions.
- The decoy id's unicode part and its shared length are not modelled. The id is `Bogus(unicode, counter)`, and its uniqueness rests on the counter.
- `randomDouble()` in the chunk size is replaced by an integer fraction, standing for the truncated product of the batch size and the double, so no floating point enters the model.
- `eagerPartition` is not part of this model. `Partition` is a reference chunking with the properties the call relies on.
- The cluster-state map diff that ignores array order becomes equality of a canonical form. The round trip that strips the local-node reference is taken as already done.
- `ExceptionsHelper.unwrapCause` is not part of this model. Its depth limit is not modelled, and `UnwrapCause` peels every wrapper.
- The numeric values of `ClusterHealthStatus` are defined outside this file. The model assumes GREEN 0 < YELLOW 1 < RED 2.
- The defaults of the internal cluster implementation are parameters: minimum and maximum data nodes, and client nodes.
- `waitForDocs`, `assertBusy` and other wall-clock polling are not modelled. Neither are settings randomization, index templates, or the setup callable of `beforeInternal`, that is `beforeTest`, `wipe` and `randomIndexTemplate`.
- `afterClass` clears the suite seed and the current cluster, which are static fields the model does not carry.
- When no decoys are injected, `Collections.shuffle` reorders the caller's own list in place, and it throws on an unmodifiable list of two or more elements. The model shuffles a value, leaves the caller's list unchanged, and does not model that exception.
- Whether a cluster close or the REST client close throws while the registry is cleared is an input.
- The steps of `afterInternal` are inputs, each saying whether it returns normally: the disruption-scheme reset, the metadata check, the size check, the state report, `beforeIndexDeletion`, the wipe, the close of the current cluster and the after-test check. `checkStaticState` after a suite-scoped class is an input too.
- The metadata check looks at both persistent and transient keys; they appear as one flag.
- Suite-scope reuse in `buildAndPutCluster` does not check whether the cached cluster is still open. The model reuses it as the code does.
- TestHelpers.NumberOfReplicas has no contract of its own. Its bound is stated by `ReplicasFitOnDataNodes`.
- `getNumShards` reads the counts from cluster metadata; only the `NumShards` record it builds is modelled.
- Where the documented behaviour and the code differ, the code is followed:
  - the in-flight loop stops at exactly 150 outstanding operations, not below;
  - a throwing cluster close leaves the registry map and the REST client untouched, and a throwing REST client close leaves the client open after the map was emptied;
  - `waitForRelocation` with a status requires that exact status.

=== FILE: common.dfy ===
/** Failure-carrying wrappers shared by every module of the model. */
module Common {

  /** A value that may be absent, standing in for a Java reference that may be null. */
  datatype Option<+T> = None | Some(value: T)

  /** The result of a step that either produces a value or fails with an error. */
  datatype Result<+T, +E> = Ok(value: T) | Err(error: E)

  /** The result of a step that produces nothing but may fail: a Java method that either
      returns normally or throws. */
  datatype Outcome<+E> = Pass | Fail(error: E)

  /** `between(lo, hi)` of the randomized test framework: a raw random draw reduced into the
      closed range. */
  function Between(lo: int, hi: int, draw: nat): (r: int)
    requires lo <= hi
    ensures lo <= r <= hi
  {
    lo + draw % (hi - lo + 1)
  }
}

=== FILE: consistency.dfy ===
/**
 * ensureClusterStateConsistency: every node that holds the same cluster-state version as
 * the master, under the same elected master, must hold the same state as the master.
 */
module StateConsistency {
  import opened Common

  /** A node's cluster state after the round trip that strips the local-node reference:
      its version, the id of the master it follows (null when none), its state UUID, the
      length of its re-serialisation, and its content in a canonical form in which the order
      of array elements no longer shows. */
  datatype StateView = StateView(
    version: int,
    masterNodeId: Option<string>,
    stateUUID: string,
    serializedSize: nat,
    canonical: seq<char>)

  /** The first way in which a node's state can differ from the master's, in the order the
      assertions are made. */
  datatype Aspect = UuidDiffers | SizeDiffers | ContentDiffers

  datatype Report =
    | Skipped                           // no cluster, or a cluster without nodes
    | Consistent
    | Mismatch(node: nat, aspect: Aspect)
    | NullMasterId(node: nat)           // the master knows no master: the comparison throws

  /** The reports that let a teardown go on. */
  predicate Acceptable(r: Report)
  {
    r.Skipped? || r.Consistent?
  }

  /** A node is held to the master's state only when it is on the same version and follows the
      same master. */
  predicate Comparable(master: StateView, local: StateView)
  {
    master.version == local.version && master.masterNodeId.Some? && local.masterNodeId == master.masterNodeId
  }

  /** The three comparisons made of a comparable node. */
  predicate Agrees(master: StateView, local: StateView)
  {
    master.stateUUID == local.stateUUID && master.serializedSize == local.serializedSize && master.canonical == local.canonical
  }

  /** The check is well defined for a node: the master id is only dereferenced once the
      versions match. */
  predicate Dereferenceable(master: StateView, local: StateView)
  {
    master.version == local.version ==> master.masterNodeId.Some?
  }

  /** The nodes from `from` on, in client order, until the first one that fails. */
  function CheckFrom(master: StateView, locals: seq<StateView>, from: nat): (r: Report)
    requires from <= |locals|
    ensures r.Consistent? || r.Mismatch? || r.NullMasterId?
    ensures r.Consistent? <==> forall j :: from <= j < |locals| ==>
      Dereferenceable(master, locals[j]) && (Comparable(master, locals[j]) ==> Agrees(master, locals[j]))
    ensures r.Mismatch? ==>
      && from <= r.node < |locals|
      && Comparable(master, locals[r.node])
      && !Agrees(master, locals[r.node])
      && r.aspect == (if master.stateUUID != locals[r.node].stateUUID then UuidDiffers
                      else if master.serializedSize != locals[r.node].serializedSize then SizeDiffers
                      else ContentDiffers)
    ensures r.NullMasterId? ==>
      from <= r.node < |locals| && !Dereferenceable(master, locals[r.node])
    ensures !r.Consistent? ==> forall j :: from <= j < r.node ==>
      Dereferenceable(master, locals[j]) && (Comparable(master, locals[j]) ==> Agrees(master, locals[j]))
    decreases |locals| - from
  {
    if from == |locals| then Consistent
    else
      var local := locals[from];
      if master.version == local.version && master.masterNodeId.None? then NullMasterId(from)
      else if Comparable(master, local) && master.stateUUID != local.stateUUID then Mismatch(from, UuidDiffers)
      else if Comparable(master, local) && master.serializedSize != local.serializedSize then Mismatch(from, SizeDiffers)
      else if Comparable(master, local) && master.canonical != local.canonical then Mismatch(from, ContentDiffers)
      else CheckFrom(master, locals, from + 1)
  }

  /** The whole check: skipped when there is no cluster or it has no nodes, otherwise every
      node's local state is held against the master's. */
  function EnsureClusterStateConsistency(clusterPresent: bool, clusterSize: nat, master: StateView,
                                         locals: seq<StateView>): (r: Report)
    ensures r.Skipped? <==> !clusterPresent || clusterSize == 0
    ensures r.Consistent? <==> clusterPresent && clusterSize > 0 && forall j :: 0 <= j < |locals| ==>
      Dereferenceable(master, locals[j]) && (Comparable(master, locals[j]) ==> Agrees(master, locals[j]))
    ensures r.Mismatch? ==> r.node < |locals| && Comparable(master, locals[r.node]) && !Agrees(master, locals[r.node])
  {
    if !clusterPresent || clusterSize == 0 then Skipped
    else CheckFrom(master, locals, 0)
  }

  /** Nodes that lag behind (or run ahead of) the master's version are never reported. */
  lemma SkewedNodesNeverReported(master: StateView, locals: seq<StateView>, clusterSize: nat)
    requires clusterSize > 0
    requires forall j :: 0 <= j < |locals| ==> locals[j].version != master.version
    ensures EnsureClusterStateConsistency(true, clusterSize, master, locals) == Consistent
  {
  }

  /** A node that follows another master is never reported, whatever state it holds. */
  lemma {:induction false} OtherMasterNeverReported(master: StateView, locals: seq<StateView>, i: nat, other: StateView,
                                                    clusterSize: nat)
    requires clusterSize > 0 && i < |locals|
    requires master.masterNodeId.Some? && other.masterNodeId != master.masterNodeId
    ensures EnsureClusterStateConsistency(true, clusterSize, master, locals[i := other]).Mismatch? ==>
      EnsureClusterStateConsistency(true, clusterSize, master, locals[i := other]).node != i
  {
  }

  /** A cluster whose nodes all hold exactly the master's state is consistent. */
  lemma AllCopiesConsistent(master: StateView, n: nat, clusterSize: nat)
    requires clusterSize > 0 && master.masterNodeId.Some?
    ensures EnsureClusterStateConsistency(true, clusterSize, master, seq(n, _ => master)) == Consistent
  {
  }
}

=== FILE: health.dfy ===
/**
 * The health gate: ensureColor and waitForRelocation send one cluster-health request that
 * the server holds until its conditions hold or its timeout expires, then judge the reply.
 */
module HealthGate {
  import opened Common

  /** Cluster health, best first. */
  datatype HealthStatus = Green | Yellow | Red

  /** The numeric value of a status. The values belong to the status type, which is not part
      of this model; only their order GREEN < YELLOW < RED is relied on. */
  function StatusValue(s: HealthStatus): nat
  {
    match s
    case Green => 0
    case Yellow => 1
    case Red => 2
  }

  /** "At least as healthy as", stated per status without numbers. */
  predicate AtLeastAsHealthy(observed: HealthStatus, requested: HealthStatus)
  {
    match requested
    case Red => true
    case Yellow => observed != Red
    case Green => observed == Green
  }

  /** Comparing numeric values is exactly the health order. */
  lemma StatusValueMatchesHealthOrder(observed: HealthStatus, requested: HealthStatus)
    ensures StatusValue(observed) <= StatusValue(requested) <==> AtLeastAsHealthy(observed, requested)
  {
  }

  /** The conditions a cluster-health request asks the server to wait for. */
  datatype HealthRequest = HealthRequest(
    indices: seq<string>,
    timeoutMillis: Option<nat>,
    waitForStatus: Option<HealthStatus>,
    waitForLanguidEvents: bool,
    waitForNoRelocatingShards: bool,
    waitForNoInitializingShards: bool,
    waitForNodes: Option<nat>)

  /** The reply: whether the server gave up waiting, and the status it saw last. */
  datatype HealthResponse = HealthResponse(timedOut: bool, status: HealthStatus)

  /** What the cluster looks like when the server answers. */
  datatype ClusterHealth = ClusterHealth(status: HealthStatus, relocatingShards: nat, initializingShards: nat, nodes: nat)

  /** The server's side: every condition of the request holds of the cluster. */
  predicate Satisfied(req: HealthRequest, h: ClusterHealth)
  {
    && (req.waitForStatus.Some? ==> AtLeastAsHealthy(h.status, req.waitForStatus.value))
    && (req.waitForNoRelocatingShards ==> h.relocatingShards == 0)
    && (req.waitForNoInitializingShards ==> h.initializingShards == 0)
    && (req.waitForNodes.Some? ==> h.nodes == req.waitForNodes.value)
  }

  /** A server that answers honestly: it reports a timeout exactly when the conditions do not
      hold by the deadline, and always reports the status it sees. */
  function ServerReply(req: HealthRequest, h: ClusterHealth): (r: HealthResponse)
    ensures r.status == h.status
    ensures !r.timedOut <==> Satisfied(req, h)
  {
    HealthResponse(!Satisfied(req, h), h.status)
  }

  /** The request ensureColor sends: the requested status, languid events, no relocating
      shards, optionally no initializing shards, and exactly as many nodes as the cluster has. */
  function EnsureColorRequest(requested: HealthStatus, timeoutMillis: nat, waitForNoInitializingShards: bool,
                              indices: seq<string>, clusterSize: nat): (req: HealthRequest)
    ensures forall h: ClusterHealth :: Satisfied(req, h) <==>
      && AtLeastAsHealthy(h.status, requested)
      && h.relocatingShards == 0
      && (waitForNoInitializingShards ==> h.initializingShards == 0)
      && h.nodes == clusterSize
  {
    HealthRequest(indices, Some(timeoutMillis), Some(requested), true, true, waitForNoInitializingShards, Some(clusterSize))
  }

  datatype HealthFailure =
    | TimedOut(last: HealthStatus)
    | WorseThanRequested(observed: HealthStatus)
    | NotExactly(observed: HealthStatus)

  /** ensureColor's judgement of the reply: a timeout fails, and otherwise the observed status
      value must not exceed the requested one. */
  function EnsureColor(requested: HealthStatus, reply: HealthResponse): (r: Result<HealthStatus, HealthFailure>)
    ensures r.Ok? <==> !reply.timedOut && AtLeastAsHealthy(reply.status, requested)
    ensures r.Ok? ==> r.value == reply.status
    ensures reply.timedOut ==> r == Err(TimedOut(reply.status))
  {
    if reply.timedOut then Err(TimedOut(reply.status))
    else if StatusValue(reply.status) <= StatusValue(requested) then Ok(reply.status)
    else Err(WorseThanRequested(reply.status))
  }

  /** ensureColor against an honest server: success means the cluster has the requested health,
      has no relocating shards, has every expected node, and (when asked) no initializing shards;
      and a server that does not time out never produces the "worse than requested" failure. */
  lemma EnsureColorGuarantees(requested: HealthStatus, timeoutMillis: nat, noInit: bool, indices: seq<string>,
                              clusterSize: nat, h: ClusterHealth)
    ensures
      var r := EnsureColor(requested, ServerReply(EnsureColorRequest(requested, timeoutMillis, noInit, indices, clusterSize), h));
      && (r.Ok? <==> Satisfied(EnsureColorRequest(requested, timeoutMillis, noInit, indices, clusterSize), h))
      && (r.Ok? ==> h.nodes == clusterSize && h.relocatingShards == 0 && (noInit ==> h.initializingShards == 0))
      && !(r.Err? && r.error.WorseThanRequested?)
  {
  }

  /** Asking for a less healthy status never turns a success into a failure. */
  lemma EnsureColorMonotone(weaker: HealthStatus, stronger: HealthStatus, reply: HealthResponse)
    requires AtLeastAsHealthy(stronger, weaker)
    ensures EnsureColor(stronger, reply).Ok? ==> EnsureColor(weaker, reply).Ok?
  {
  }

  /** The request waitForRelocation sends: no relocating shards and, when given, the status. */
  function WaitForRelocationRequest(status: Option<HealthStatus>): (req: HealthRequest)
    ensures forall h: ClusterHealth :: Satisfied(req, h) <==>
      h.relocatingShards == 0 && (status.Some? ==> AtLeastAsHealthy(h.status, status.value))
  {
    HealthRequest([], None, status, false, true, false, None)
  }

  /** waitForRelocation's judgement: a timeout fails, and a given status must be met exactly. */
  function WaitForRelocation(status: Option<HealthStatus>, reply: HealthResponse): (r: Result<HealthStatus, HealthFailure>)
    ensures r.Ok? <==> !reply.timedOut && (status.Some? ==> reply.status == status.value)
    ensures r.Ok? ==> r.value == reply.status
  {
    if reply.timedOut then Err(TimedOut(reply.status))
    else if status.Some? && reply.status != status.value then Err(NotExactly(reply.status))
    else Ok(reply.status)
  }

  /** The exact comparison is stricter than the server's wait: a cluster that became healthier
      than the status asked for satisfies the server but fails the call. */
  lemma RelocationDemandsExactStatus(h: ClusterHealth)
    requires h.relocatingShards == 0 && h.status == Green
    ensures Satisfied(WaitForRelocationRequest(Some(Yellow)), h)
    ensures WaitForRelocation(Some(Yellow), ServerReply(WaitForRelocationRequest(Some(Yellow)), h)).Err?
  {
  }
}

=== FILE: helpers.dfy ===
/**
 * Small helpers of the integration-test base class: shard and replica counts, the rollback
 * of createIndex, and the exact-hit-count assertion.
 */
module TestHelpers {
  import opened Common

  /** Java's 32-bit int. */
  const Int32Min: int := -0x8000_0000
  const Int32Max: int := 0x7fff_ffff

  predicate IsInt32(x: int)
  {
    Int32Min <= x <= Int32Max
  }

  /** Two's-complement wrap-around of a mathematical integer into an int. */
  function Wrap32(x: int): (r: int)
    ensures IsInt32(r)
    ensures (r - x) % 0x1_0000_0000 == 0
    ensures IsInt32(x) ==> r == x
  {
    (x - Int32Min) % 0x1_0000_0000 + Int32Min
  }

  /** The shard counts of one index, as int fields. */
  datatype NumShards = NumShards(numPrimaries: int, numReplicas: int, totalNumShards: int, dataCopies: int)

  /** NumShards' constructor: one primary plus the replicas make the copies of each shard, and
      every primary has that many copies; both computed in int arithmetic. */
  function MakeNumShards(numPrimaries: int, numReplicas: int): (s: NumShards)
    requires IsInt32(numPrimaries) && IsInt32(numReplicas)
    ensures s.numPrimaries == numPrimaries && s.numReplicas == numReplicas
    ensures IsInt32(s.dataCopies) && IsInt32(s.totalNumShards)
    ensures numReplicas < Int32Max ==> s.dataCopies == numReplicas + 1
    ensures IsInt32(numPrimaries * (numReplicas + 1)) && numReplicas < Int32Max ==>
      s.totalNumShards == numPrimaries * s.dataCopies
  {
    var dataCopies := Wrap32(numReplicas + 1);
    NumShards(numPrimaries, numReplicas, Wrap32(numPrimaries * dataCopies), dataCopies)
  }

  /** For any index the cluster accepts (at most 1024 primaries) and any replica count below a
      million, nothing wraps: the total is the primaries times the copies, and a single copy
      per shard means the total equals the primaries. */
  lemma ShardTotalsExactForRealisticIndices(numPrimaries: int, numReplicas: int)
    requires 1 <= numPrimaries <= 1024 && 0 <= numReplicas < 1_000_000
    ensures MakeNumShards(numPrimaries, numReplicas).totalNumShards == numPrimaries * (numReplicas + 1)
    ensures MakeNumShards(numPrimaries, numReplicas).totalNumShards >= numPrimaries
    ensures MakeNumShards(numPrimaries, numReplicas).totalNumShards == numPrimaries <==> numReplicas == 0
  {
    var total := numPrimaries * (numReplicas + 1);
    MulMonotone(numPrimaries, 1024, numReplicas + 1);
    assert total == numPrimaries * numReplicas + numPrimaries;
    if numReplicas > 0 {
      MulPositive(numPrimaries, numReplicas);
    }
    assert IsInt32(total);
  }

  lemma MulMonotone(a: int, b: int, c: int)
    requires 0 <= a <= b && 0 <= c
    ensures a * c <= b * c
  {
  }

  lemma MulPositive(a: int, b: int)
    requires 1 <= a && 1 <= b
    ensures a * b >= 1
  {
  }

  lemma MaxReplicasWrapCopies()
    ensures MakeNumShards(1, Int32Max).dataCopies == Int32Min
  {
  }

  const DefaultMinNumShards: int := 1
  const DefaultMaxNumShards: int := 10

  /** numberOfShards with the default bounds. */
  function NumberOfShards(draw: nat): (r: int)
    ensures DefaultMinNumShards <= r <= DefaultMaxNumShards
  {
    Between(DefaultMinNumShards, DefaultMaxNumShards, draw)
  }

  /** maximumNumberOfReplicas: at most one replica fewer than there are data nodes, and only
      rarely more than one. */
  function MaximumNumberOfReplicas(numDataNodes: nat, frequently: bool): (r: nat)
    ensures numDataNodes >= 1 ==> r + 1 <= numDataNodes
    ensures r == 0 <==> numDataNodes <= 1
    ensures frequently ==> r <= 1
    ensures !frequently ==> r + 1 == numDataNodes || (numDataNodes == 0 && r == 0)
  {
    var maxNumReplicas := if numDataNodes >= 1 then numDataNodes - 1 else 0;
    if frequently then (if maxNumReplicas < 1 then maxNumReplicas else 1) else maxNumReplicas
  }

  /** numberOfReplicas: a draw between zero and the maximum. */
  function NumberOfReplicas(numDataNodes: nat, frequently: bool, draw: nat): (r: nat)
  {
    Between(0, MaximumNumberOfReplicas(numDataNodes, frequently), draw)
  }

  /** Whatever is drawn, a primary and all its replicas fit on distinct data nodes. */
  lemma ReplicasFitOnDataNodes(numDataNodes: nat, frequently: bool, draw: nat)
    requires numDataNodes >= 1
    ensures NumberOfReplicas(numDataNodes, frequently, draw) + 1 <= numDataNodes
  {
  }

  /** The outcome of createIndex over a list of names. `wiped` lists the indices deleted after
      a failure; it is empty when nothing had been created, and then nothing is wiped. */
  datatype CreateOutcome =
    | AllCreated(created: seq<string>)
    | CreateFailed(at: nat, wiped: seq<string>)

  /** Creates `names[i..]` after `names[..i]` were created. `acked(j)` says whether creating
      `names[j]` is acknowledged without an exception. */
  function CreateFrom(names: seq<string>, acked: nat -> bool, i: nat, created: seq<string>): (r: CreateOutcome)
    requires i <= |names| && created == names[..i]
    requires forall j :: 0 <= j < i ==> acked(j)
    ensures r.AllCreated? <==> forall j :: i <= j < |names| ==> acked(j)
    ensures r.AllCreated? ==> r.created == names
    ensures r.CreateFailed? ==>
      && i <= r.at < |names|
      && !acked(r.at)
      && (forall j :: 0 <= j < r.at ==> acked(j))
      && r.wiped == names[..r.at]
    decreases |names| - i
  {
    if i == |names| then AllCreated(created)
    else if acked(i) then CreateFrom(names, acked, i + 1, created + [names[i]])
    else CreateFailed(i, created)
  }

  /** createIndex(names...): create each in turn; on the first failure wipe exactly the names
      created so far and stop. */
  function CreateIndex(names: seq<string>, acked: nat -> bool): (r: CreateOutcome)
    ensures r.AllCreated? <==> forall j :: 0 <= j < |names| ==> acked(j)
    ensures r.AllCreated? ==> r.created == names
    ensures r.CreateFailed? ==>
      && r.at < |names| && !acked(r.at)
      && (forall j :: 0 <= j < r.at ==> acked(j))
      && r.wiped == names[..r.at]
  {
    CreateFrom(names, acked, 0, [])
  }

  /** A failure on the very first name wipes nothing. */
  lemma {:induction false} FirstFailureWipesNothing(names: seq<string>, acked: nat -> bool)
    requires |names| > 0 && !acked(0)
    ensures CreateIndex(names, acked) == CreateFailed(0, [])
  {
  }

  /** How a search reports its hit count: exactly, or as a lower bound. */
  datatype Relation = EqualTo | GreaterThanOrEqualTo
  datatype TotalHits = TotalHits(value: int, relation: Relation)

  /** What the failure message reports: the count seen (marked "+" when only a lower bound)
      and the count expected. */
  datatype ResultsMismatch = ResultsMismatch(reported: int, lowerBound: bool, expected: int)

  /** assertResultsAndLogOnFailure: the hits must be exactly the expected count. */
  function AssertResultsAndLogOnFailure(expected: int, hits: TotalHits): (r: Outcome<ResultsMismatch>)
    ensures r.Pass? <==> hits.value == expected && hits.relation == EqualTo
    ensures r.Fail? ==> r.error == ResultsMismatch(hits.value, hits.relation == GreaterThanOrEqualTo, expected)
  {
    if hits.value != expected || hits.relation != EqualTo then
      Fail(ResultsMismatch(hits.value, hits.relation == GreaterThanOrEqualTo, expected))
    else Pass
  }

  /** A count that is only a lower bound never confirms an expectation, even when it matches. */
  lemma LowerBoundNeverConfirms(expected: int)
    ensures AssertResultsAndLogOnFailure(expected, TotalHits(expected, GreaterThanOrEqualTo)).Fail?
  {
  }
}

=== FILE: in_flight.dfy ===
/**
 * postIndexAsyncActions: after each document of a one-by-one indexing run, maybe start an
 * asynchronous refresh, flush or force-merge, then wait on randomly chosen outstanding
 * operations until no more than MaxInFlightAsyncIndexes remain.
 */
module InFlight {
  import opened Common
  import opened IndexPlan

  /** An asynchronous admin operation over the batch's indices. */
  datatype AdminCall =
    | Refresh(indices: set<string>)
    | Flush(indices: set<string>)
    | SyncedFlush(indices: set<string>)
    | ForceMerge(indices: set<string>, maxNumSegments: int, flush: bool)

  /** An outstanding asynchronous operation, standing for its latch. */
  datatype Ticket = IndexTicket(request: IndexRequest) | AdminTicket(call: AdminCall)

  /** The random draws of one call, in the order the source makes them: the outer `rarely`,
      the one choosing a refresh, the one allowing a flush (drawn only when flushing is allowed),
      the coin between plain and synced flush, the one choosing a force-merge, the raw draw of
      the segment count, the coin for flushing after the merge, and the raw draws picking which
      outstanding operation to wait on. */
  datatype PostDraw = PostDraw(
    rarely: bool, refresh: bool, flush: bool, plainFlush: bool,
    merge: bool, maxNumSegments: nat, mergeFlush: bool, removals: seq<nat>)

  /** Flush and force-merge-with-flush are what `maybeFlush` guards. */
  predicate Flushes(a: AdminCall)
  {
    a.Flush? || a.SyncedFlush? || (a.ForceMerge? && a.flush)
  }

  /** The admin operation started, if any. */
  function SideAction(indices: set<string>, maybeFlush: bool, d: PostDraw): (a: Option<AdminCall>)
    ensures a.Some? ==> d.rarely && a.value.indices == indices
    ensures a.Some? && Flushes(a.value) ==> maybeFlush
    ensures a.Some? && a.value.ForceMerge? ==> 1 <= a.value.maxNumSegments <= 10
    ensures d.rarely && d.refresh ==> a == Some(Refresh(indices))
    ensures a.Some? && a.value.Refresh? ==> d.refresh
    ensures a.None? <==> !d.rarely || (!d.refresh && !(maybeFlush && d.flush) && !d.merge)
    ensures d.rarely && !d.refresh && maybeFlush && d.flush ==>
      a == Some(if d.plainFlush then Flush(indices) else SyncedFlush(indices))
    ensures d.rarely && !d.refresh && !(maybeFlush && d.flush) && d.merge ==>
      && a.Some? && a.value.ForceMerge?
      && a.value.maxNumSegments == Between(1, 10, d.maxNumSegments)
      && a.value.flush == (maybeFlush && d.mergeFlush)
  {
    if !d.rarely then None
    else if d.refresh then Some(Refresh(indices))
    else if maybeFlush && d.flush then
      Some(if d.plainFlush then Flush(indices) else SyncedFlush(indices))
    else if d.merge then
      Some(ForceMerge(indices, Between(1, 10, d.maxNumSegments), maybeFlush && d.mergeFlush))
    else None
  }

  function Issued(a: Option<AdminCall>): (ts: seq<Ticket>)
    ensures |ts| <= 1
    ensures a.Some? ==> ts == [AdminTicket(a.value)]
    ensures a.None? ==> ts == []
  {
    if a.Some? then [AdminTicket(a.value)] else []
  }

  /** Removes position `i`. */
  function RemoveAt<T>(s: seq<T>, i: nat): (r: seq<T>)
    requires i < |s|
    ensures |r| == |s| - 1
    ensures multiset(r) + multiset{s[i]} == multiset(s)
  {
    assert s == s[..i] + [s[i]] + s[i + 1..];
    s[..i] + s[i + 1..]
  }

  /** One call. `awaited` lists the operations waited on, in order; nothing is lost: every
      operation outstanding before, or started now, is either still outstanding or awaited. */
  method PostIndexAsyncActions(indices: set<string>, inFlight: seq<Ticket>, maybeFlush: bool, d: PostDraw)
    returns (remaining: seq<Ticket>, awaited: seq<Ticket>, issued: Option<AdminCall>)
    ensures issued == SideAction(indices, maybeFlush, d)
    ensures |remaining| <= MaxInFlightAsyncIndexes
    ensures multiset(remaining) + multiset(awaited) == multiset(inFlight + Issued(issued))
    ensures |inFlight + Issued(issued)| <= MaxInFlightAsyncIndexes ==>
      remaining == inFlight + Issued(issued) && awaited == []
    ensures |inFlight + Issued(issued)| > MaxInFlightAsyncIndexes ==> |remaining| == MaxInFlightAsyncIndexes
  {
    issued := SideAction(indices, maybeFlush, d);
    remaining := inFlight + Issued(issued);
    awaited := [];
    var k := 0;
    while |remaining| > MaxInFlightAsyncIndexes
      invariant multiset(remaining) + multiset(awaited) == multiset(inFlight + Issued(issued))
      invariant |remaining| + |awaited| == |inFlight + Issued(issued)|
      invariant |inFlight + Issued(issued)| > MaxInFlightAsyncIndexes ==> |remaining| >= MaxInFlightAsyncIndexes
      invariant awaited == [] ==> remaining == inFlight + Issued(issued)
      invariant |inFlight + Issued(issued)| <= MaxInFlightAsyncIndexes ==> awaited == []
      decreases |remaining|
    {
      var draw := if k < |d.removals| then d.removals[k] else 0;
      var waitFor := Between(0, |remaining| - 1, draw);
      awaited := awaited + [remaining[waitFor]];
      remaining := RemoveAt(remaining, waitFor);
      k := k + 1;
    }
  }
}

=== FILE: index_plan.dfy ===
/**
 * The pure decisions of indexRandom: which (index, type) pairs a batch targets, the decoy
 * documents appended to a copy of it, the shuffle, the choice between one-by-one
 * and bulk indexing, the bulk chunking, the reconciliation of asynchronous errors, and the
 * deletion of the decoys.
 */
module IndexPlan {
  import opened Common

  /** Below this many documents indexing is frequently one by one. */
  const FrequentBulkThreshold: nat := 300
  /** From this many documents on indexing is always bulk. */
  const AlwaysBulkThreshold: nat := 3000
  /** Most asynchronous operations left outstanding at once. */
  const MaxInFlightAsyncIndexes: nat := 150
  /** Most documents in one bulk request. */
  const MaxBulkIndexRequestSize: nat := 1000

  /** A document id or routing key: one the caller chose, or the id of a decoy, rendered as
      "bogus_doc_" followed by a random unicode string and a per-test counter. */
  datatype Key = Named(name: string) | Bogus(unicode: string, counter: nat)

  /** One index request of a batch. */
  datatype IndexRequest = IndexRequest(index: string, docType: string, id: Option<Key>, routing: Option<Key>, source: string)

  /** The (index, type, id) triple remembered for every decoy. */
  datatype DecoyDoc = DecoyDoc(index: string, docType: string, id: Key)

  /** The indices a batch writes to. */
  function TargetIndices(batch: seq<IndexRequest>): set<string>
  {
    set i | 0 <= i < |batch| :: batch[i].index
  }

  /** Some request of the batch writes `type` into `index`. */
  ghost predicate PairPresent(batch: seq<IndexRequest>, index: string, docType: string)
  {
    exists i :: 0 <= i < |batch| && batch[i].index == index && batch[i].docType == docType
  }

  /** The map from each target index to the types written into it. */
  function IndicesAndTypes(batch: seq<IndexRequest>): (m: map<string, set<string>>)
    ensures m.Keys == TargetIndices(batch)
    ensures forall x, t :: x in m && t in m[x] ==> PairPresent(batch, x, t)
    ensures forall i :: 0 <= i < |batch| ==> batch[i].index in m && batch[i].docType in m[batch[i].index]
  {
    map x | x in TargetIndices(batch) :: set i | 0 <= i < |batch| && batch[i].index == x :: batch[i].docType
  }

  /** The random choices for one decoy: which present (index, type) pair it goes to, given as a
      position into the batch, and the unicode part of its id. */
  datatype DecoyPick = DecoyPick(source: nat, unicode: string)

  /** The index request that writes a decoy: an empty document routed by its own id. */
  function DecoyRequest(d: DecoyDoc): IndexRequest
  {
    IndexRequest(d.index, d.docType, Some(d.id), Some(d.id), "{}")
  }

  function DecoyRequests(ds: seq<DecoyDoc>): (rs: seq<IndexRequest>)
    ensures |rs| == |ds|
    ensures forall i :: 0 <= i < |ds| ==> rs[i] == DecoyRequest(ds[i])
  {
    seq(|ds|, i requires 0 <= i < |ds| => DecoyRequest(ds[i]))
  }

  /** Decoys are injected only when the caller allows them, the batch is non-empty and the coin
      says so. */
  predicate Injects(builders: seq<IndexRequest>, dummyDocuments: bool, coin: bool)
  {
    coin && |builders| > 0 && dummyDocuments
  }

  /** The decoys themselves; the i-th takes counter value `counter + i + 1`. */
  function MakeDecoys(builders: seq<IndexRequest>, picks: seq<DecoyPick>, counter: nat): (ds: seq<DecoyDoc>)
    requires |builders| > 0
    ensures |ds| == |picks|
    ensures forall i :: 0 <= i < |ds| ==>
      ds[i].id == Bogus(picks[i].unicode, counter + i + 1) && PairPresent(builders, ds[i].index, ds[i].docType)
    ensures forall i :: 0 <= i < |ds| ==>
      ds[i].index in IndicesAndTypes(builders) && ds[i].docType in IndicesAndTypes(builders)[ds[i].index]
  {
    seq(|picks|, i requires 0 <= i < |picks| =>
      var b := builders[picks[i].source % |builders|];
      DecoyDoc(b.index, b.docType, Bogus(picks[i].unicode, counter + i + 1)))
  }

  /** The private batch, the decoys injected into it, and the id counter after them. */
  datatype Injection = Injection(batch: seq<IndexRequest>, decoys: seq<DecoyDoc>, counter: nat)

  /** Decoy injection: the caller's requests stay first and unchanged, decoys are appended. */
  function InjectDecoys(builders: seq<IndexRequest>, dummyDocuments: bool, coin: bool, picks: seq<DecoyPick>,
                        counter: nat): (inj: Injection)
    requires Injects(builders, dummyDocuments, coin) ==> 1 <= |picks| <= 2 * |builders|
    ensures !Injects(builders, dummyDocuments, coin) ==> inj == Injection(builders, [], counter)
    ensures Injects(builders, dummyDocuments, coin) ==>
      1 <= |inj.decoys| <= 2 * |builders| && inj.counter == counter + |inj.decoys|
    ensures inj.batch == builders + DecoyRequests(inj.decoys)
    ensures forall i :: 0 <= i < |inj.decoys| ==>
      inj.decoys[i].id.Bogus? && inj.decoys[i].id.counter == counter + i + 1
      && PairPresent(builders, inj.decoys[i].index, inj.decoys[i].docType)
    ensures forall i, j :: 0 <= i < j < |inj.decoys| ==> inj.decoys[i].id != inj.decoys[j].id
    ensures TargetIndices(inj.batch) == TargetIndices(builders)
  {
    if !Injects(builders, dummyDocuments, coin) then
      assert builders + DecoyRequests([]) == builders;
      Injection(builders, [], counter)
    else
      var ds := MakeDecoys(builders, picks, counter);
      var batch := builders + DecoyRequests(ds);
      assert TargetIndices(batch) == TargetIndices(builders) by {
        forall x | x in TargetIndices(batch) ensures x in TargetIndices(builders) {
          var i :| 0 <= i < |batch| && batch[i].index == x;
          if i >= |builders| {
            assert batch[i] == DecoyRequest(ds[i - |builders|]);
            assert PairPresent(builders, ds[i - |builders|].index, ds[i - |builders|].docType);
          }
        }
        forall x | x in TargetIndices(builders) ensures x in TargetIndices(batch) {
          var i :| 0 <= i < |builders| && builders[i].index == x;
          assert batch[i] == builders[i];
        }
      }
      Injection(batch, ds, counter + |ds|)
  }

  /** Swaps two positions. */
  function Swap<T>(s: seq<T>, i: nat, j: nat): (r: seq<T>)
    requires i < |s| && j < |s|
    ensures |r| == |s| && multiset(r) == multiset(s)
  {
    s[i := s[j]][j := s[i]]
  }

  /** The shuffle with its random draws as an input: for i from the length down to 2, swap
      position i - 1 with a drawn position below i; `draw(k)` is the k-th draw. */
  function ShuffleDown<T>(s: seq<T>, i: nat, draw: nat -> nat): (r: seq<T>)
    requires i <= |s|
    ensures |r| == |s| && multiset(r) == multiset(s)
    decreases i
  {
    if i <= 1 then s
    else ShuffleDown(Swap(s, i - 1, draw(|s| - i) % i), i - 1, draw)
  }

  function Shuffle<T>(s: seq<T>, draw: nat -> nat): (r: seq<T>)
    ensures |r| == |s| && multiset(r) == multiset(s)
  {
    ShuffleDown(s, |s|, draw)
  }

  /** A permutation writes to the same indices. */
  lemma PermutationKeepsTargets(a: seq<IndexRequest>, b: seq<IndexRequest>)
    requires multiset(a) == multiset(b)
    ensures TargetIndices(a) == TargetIndices(b)
  {
    forall x | x in TargetIndices(a) ensures x in TargetIndices(b) {
      var i :| 0 <= i < |a| && a[i].index == x;
      assert a[i] in multiset(b);
    }
    forall x | x in TargetIndices(b) ensures x in TargetIndices(a) {
      var i :| 0 <= i < |b| && b[i].index == x;
      assert b[i] in multiset(a);
    }
  }

  /** How a batch is sent. */
  datatype Strategy = AsyncOneByOne | SyncOneByOne | Bulk(chunkSize: nat)

  /** The strategy decision. Only one of `frequentlyDraw` and `rarelyDraw` is consulted,
      according to the batch size; `fraction` stands for the integer part of the batch size
      times a random double in [0, 1). */
  function ChooseStrategy(n: nat, frequentlyDraw: bool, rarelyDraw: bool, asyncDraw: bool, fraction: nat): (s: Strategy)
    ensures n >= AlwaysBulkThreshold ==> s.Bulk?
    ensures n < FrequentBulkThreshold ==> (s.Bulk? <==> !frequentlyDraw)
    ensures FrequentBulkThreshold <= n < AlwaysBulkThreshold ==> (s.Bulk? <==> !rarelyDraw)
    ensures s.Bulk? ==> 1 <= s.chunkSize <= MaxBulkIndexRequestSize
    ensures s.Bulk? && 1 <= fraction <= MaxBulkIndexRequestSize ==> s.chunkSize == fraction
    ensures s.Bulk? && fraction == 0 ==> s.chunkSize == 1
    ensures s.Bulk? && fraction > MaxBulkIndexRequestSize ==> s.chunkSize == MaxBulkIndexRequestSize
    ensures s.Bulk? && (fraction < n || fraction == 0) ==> s.chunkSize <= n || n == 0
    ensures !s.Bulk? ==> (s.AsyncOneByOne? <==> asyncDraw)
  {
    var oneByOne :=
      if n < FrequentBulkThreshold then frequentlyDraw
      else if n < AlwaysBulkThreshold then rarelyDraw
      else false;
    if oneByOne then (if asyncDraw then AsyncOneByOne else SyncOneByOne)
    else
      var atLeastOne := if fraction < 1 then 1 else fraction;
      Bulk(if atLeastOne < MaxBulkIndexRequestSize then atLeastOne else MaxBulkIndexRequestSize)
  }

  /** Concatenation of chunks. */
  function Flatten<T>(chunks: seq<seq<T>>): seq<T>
  {
    if |chunks| == 0 then [] else chunks[0] + Flatten(chunks[1..])
  }

  /** Eager partition: consecutive chunks of `size` elements, the last one possibly shorter. */
  function Partition<T>(xs: seq<T>, size: nat): (chunks: seq<seq<T>>)
    requires size >= 1
    ensures Flatten(chunks) == xs
    ensures forall i :: 0 <= i < |chunks| ==> 1 <= |chunks[i]| <= size
    ensures forall i :: 0 <= i < |chunks| - 1 ==> |chunks[i]| == size
    ensures |xs| > 0 ==> |chunks| > 0
    decreases |xs|
  {
    if |xs| == 0 then []
    else if |xs| <= size then
      assert Flatten([xs]) == xs + Flatten([]);
      [xs]
    else
      var rest := Partition(xs[size..], size);
      assert ([xs[..size]] + rest)[1..] == rest;
      assert xs[..size] + xs[size..] == xs;
      [xs[..size]] + rest
  }

  /** Why an asynchronous index call failed. Wrappers are peeled off before the cause is judged. */
  datatype Cause = Rejected | Wrapper(inner: Cause) | OtherFailure(name: string)

  /** The failure beneath all wrapping layers. */
  function UnwrapCause(c: Cause): (r: Cause)
    ensures !r.Wrapper?
    ensures !c.Wrapper? ==> r == c
  {
    match c
    case Wrapper(inner) => UnwrapCause(inner)
    case _ => c
  }

  /** `c` inside `n` wrapping layers. */
  function Wrap(c: Cause, n: nat): Cause
  {
    if n == 0 then c else Wrapper(Wrap(c, n - 1))
  }

  /** Unwrapping gives back exactly the failure that was wrapped, however deep, so a wrapped
      rejection is still a rejection and a wrapped other failure is never one. */
  lemma {:induction false} UnwrapOfWrap(c: Cause, n: nat)
    requires !c.Wrapper?
    ensures UnwrapCause(Wrap(c, n)) == c
    ensures IsRejection(Wrap(c, n)) <==> c.Rejected?
  {
    if n > 0 {
      UnwrapOfWrap(c, n - 1);
    }
  }

  /** The write was turned away by a full queue, which is worth one more try. */
  predicate IsRejection(c: Cause)
  {
    UnwrapCause(c).Rejected?
  }

  /** A failed asynchronous index call and the request that made it. */
  datatype IndexError = IndexError(request: IndexRequest, cause: Cause)

  /** Reference definitions: the errors that are not rejections, in order, and the requests of
      those that are. */
  function Kept(errors: seq<IndexError>): seq<IndexError>
  {
    if |errors| == 0 then []
    else (if IsRejection(errors[0].cause) then [] else [errors[0]]) + Kept(errors[1..])
  }

  function RejectedRequests(errors: seq<IndexError>): seq<IndexRequest>
  {
    if |errors| == 0 then []
    else (if IsRejection(errors[0].cause) then [errors[0].request] else []) + RejectedRequests(errors[1..])
  }

  /** Every error is either kept or retried, never both, and kept errors are never rejections. */
  lemma {:induction false} KeptAndRetriedSplitErrors(errors: seq<IndexError>)
    ensures |Kept(errors)| + |RejectedRequests(errors)| == |errors|
    ensures forall i :: 0 <= i < |Kept(errors)| ==> !IsRejection(Kept(errors)[i].cause) && Kept(errors)[i] in errors
    ensures (forall i :: 0 <= i < |errors| ==> IsRejection(errors[i].cause)) <==> Kept(errors) == []
  {
    if |errors| > 0 {
      KeptAndRetriedSplitErrors(errors[1..]);
      var head := if IsRejection(errors[0].cause) then [] else [errors[0]];
      assert Kept(errors) == head + Kept(errors[1..]);
      forall i | 0 <= i < |Kept(errors)|
        ensures !IsRejection(Kept(errors)[i].cause) && Kept(errors)[i] in errors
      {
        if i >= |head| {
          assert Kept(errors)[i] == Kept(errors[1..])[i - |head|];
          assert Kept(errors[1..])[i - |head|] in errors[1..];
        }
      }
      if forall i :: 0 <= i < |errors| ==> IsRejection(errors[i].cause) {
        assert forall i :: 0 <= i < |errors[1..]| ==> IsRejection(errors[1..][i].cause) by {
          forall i | 0 <= i < |errors[1..]| ensures IsRejection(errors[1..][i].cause) {
            assert errors[1..][i] == errors[i + 1];
          }
        }
      }
      if Kept(errors) == [] {
        assert head == [];
        forall i | 0 <= i < |errors| ensures IsRejection(errors[i].cause) {
          if i > 0 { assert errors[i] == errors[1..][i - 1]; }
        }
      }
    }
  }

  /** What the error reconciliation did: the rejected requests re-executed and the errors kept,
      or the re-execution that failed (which throws out of the whole call). */
  datatype Reconciliation =
    | Reconciled(retried: seq<IndexRequest>, kept: seq<IndexError>)
    | RetryFailed(retried: seq<IndexRequest>, request: IndexRequest, cause: Cause)

  /** Walks the errors in order: a rejection is re-executed once, synchronously, and dropped;
      any other error is kept. `retryReply(k)` is the reply to the k-th re-execution. */
  function Reconcile(errors: seq<IndexError>, retryReply: nat -> Option<Cause>, k: nat): Reconciliation
  {
    if |errors| == 0 then Reconciled([], [])
    else if IsRejection(errors[0].cause) then
      match retryReply(k)
      case Some(c) => RetryFailed([], errors[0].request, c)
      case None =>
        match Reconcile(errors[1..], retryReply, k + 1)
        case Reconciled(rt, kp) => Reconciled([errors[0].request] + rt, kp)
        case RetryFailed(rt, req, c) => RetryFailed([errors[0].request] + rt, req, c)
    else
      match Reconcile(errors[1..], retryReply, k)
      case Reconciled(rt, kp) => Reconciled(rt, [errors[0]] + kp)
      case RetryFailed(rt, req, c) => RetryFailed(rt, req, c)
  }

  /** Reconciliation succeeds exactly when every re-execution it needs succeeds. */
  lemma {:induction false} ReconcileSucceedsIff(errors: seq<IndexError>, retryReply: nat -> Option<Cause>, k: nat)
    ensures Reconcile(errors, retryReply, k).Reconciled?
      <==> forall j :: k <= j < k + |RejectedRequests(errors)| ==> retryReply(j).None?
  {
    if |errors| > 0 {
      if IsRejection(errors[0].cause) {
        assert |RejectedRequests(errors)| == 1 + |RejectedRequests(errors[1..])|;
        if retryReply(k).None? {
          ReconcileSucceedsIff(errors[1..], retryReply, k + 1);
        }
      } else {
        assert RejectedRequests(errors) == RejectedRequests(errors[1..]);
        ReconcileSucceedsIff(errors[1..], retryReply, k);
      }
    }
  }

  /** A successful reconciliation retried exactly the rejected requests and kept exactly the
      other errors, both in order. */
  lemma {:induction false} ReconcileMatchesFilters(errors: seq<IndexError>, retryReply: nat -> Option<Cause>, k: nat)
    ensures var r := Reconcile(errors, retryReply, k);
      r.Reconciled? ==> r.retried == RejectedRequests(errors) && r.kept == Kept(errors)
  {
    if |errors| > 0 {
      if IsRejection(errors[0].cause) {
        ReconcileMatchesFilters(errors[1..], retryReply, k + 1);
      } else {
        ReconcileMatchesFilters(errors[1..], retryReply, k);
      }
    }
  }

  /** A failed re-execution is that of the next rejected request in order, after all earlier
      ones succeeded. */
  lemma {:induction false} ReconcileStopsAtFailedRetry(errors: seq<IndexError>, retryReply: nat -> Option<Cause>, k: nat)
    ensures var r := Reconcile(errors, retryReply, k);
      r.RetryFailed? ==>
        && |r.retried| < |RejectedRequests(errors)|
        && r.retried == RejectedRequests(errors)[..|r.retried|]
        && r.request == RejectedRequests(errors)[|r.retried|]
        && retryReply(k + |r.retried|) == Some(r.cause)
        && (forall j :: k <= j < k + |r.retried| ==> retryReply(j).None?)
  {
    if |errors| > 0 {
      var all := RejectedRequests(errors);
      if IsRejection(errors[0].cause) {
        assert all == [errors[0].request] + RejectedRequests(errors[1..]);
        if retryReply(k).None? {
          ReconcileStopsAtFailedRetry(errors[1..], retryReply, k + 1);
          var rest := Reconcile(errors[1..], retryReply, k + 1);
          if rest.RetryFailed? {
            assert all[..|rest.retried| + 1] == [errors[0].request] + RejectedRequests(errors[1..])[..|rest.retried|];
          }
        }
      } else {
        assert all == RejectedRequests(errors[1..]);
        ReconcileStopsAtFailedRetry(errors[1..], retryReply, k);
      }
    }
  }

  /** What a write reports having done to a document. */
  datatype DocWriteResult = Created | Updated | Deleted | NotFound | Noop

  /** A delete request: the decoy's index, type and id, routed by the id. */
  datatype DeleteRequest = DeleteRequest(index: string, docType: string, id: Key, routing: Key)

  function DeleteFor(d: DecoyDoc): DeleteRequest
  {
    DeleteRequest(d.index, d.docType, d.id, d.id)
  }

  function DeleteRequests(decoys: seq<DecoyDoc>): (ds: seq<DeleteRequest>)
    ensures |ds| == |decoys|
  {
    seq(|decoys|, i requires 0 <= i < |decoys| => DeleteFor(decoys[i]))
  }

  /** The deletes sent, and the first decoy whose delete did not report DELETED. */
  datatype Deletion = Deletion(issued: seq<DeleteRequest>, outcome: Outcome<DecoyDoc>)

  /** Deletes `decoys[from..]` in order; `reply(i)` answers the delete of `decoys[i]`. */
  function DeleteDecoysFrom(decoys: seq<DecoyDoc>, reply: nat -> DocWriteResult, from: nat): (d: Deletion)
    requires from <= |decoys|
    ensures d.outcome.Pass? <==> forall i :: from <= i < |decoys| ==> reply(i) == Deleted
    ensures |d.issued| <= |decoys| - from
    ensures forall i :: 0 <= i < |d.issued| ==> d.issued[i] == DeleteFor(decoys[from + i])
    ensures d.outcome.Pass? ==> |d.issued| == |decoys| - from
    ensures d.outcome.Fail? ==>
      && |d.issued| >= 1
      && d.outcome.error == decoys[from + |d.issued| - 1]
      && reply(from + |d.issued| - 1) != Deleted
      && (forall i :: from <= i < from + |d.issued| - 1 ==> reply(i) == Deleted)
    decreases |decoys| - from
  {
    if from == |decoys| then Deletion([], Pass)
    else if reply(from) != Deleted then Deletion([DeleteFor(decoys[from])], Fail(decoys[from]))
    else
      var rest := DeleteDecoysFrom(decoys, reply, from + 1);
      Deletion([DeleteFor(decoys[from])] + rest.issued, rest.outcome)
  }

  /** Decoy retraction: every decoy is deleted with routing equal to its id, and each delete
      must report DELETED; the first one that does not ends the call. */
  function DeleteDecoys(decoys: seq<DecoyDoc>, reply: nat -> DocWriteResult): (d: Deletion)
    ensures d.outcome.Pass? <==> forall i :: 0 <= i < |decoys| ==> reply(i) == Deleted
    ensures d.outcome.Pass? ==> d.issued == DeleteRequests(decoys)
    ensures forall i :: 0 <= i < |d.issued| ==> d.issued[i].routing == d.issued[i].id
    ensures d.outcome.Fail? ==> |d.issued| >= 1 && d.outcome.error in decoys && reply(|d.issued| - 1) != Deleted
    ensures |d.issued| <= |decoys|
    ensures d.issued == DeleteRequests(decoys)[..|d.issued|]
    ensures d.outcome.Fail? ==>
      && d.outcome.error == decoys[|d.issued| - 1]
      && (forall i :: 0 <= i < |d.issued| - 1 ==> reply(i) == Deleted)
  {
    DeleteDecoysFrom(decoys, reply, 0)
  }
}

=== FILE: index_random.dfy ===
/**
 * indexRandom: decoys are injected and the batch shuffled, then the documents are sent one by
 * one (asynchronously or synchronously, with the in-flight step after each) or in bulk chunks.
 * All outstanding operations are awaited, rejected asynchronous writes are retried, any other
 * asynchronous error fails the call, the decoys are deleted again, and a final refresh is
 * issued if asked for.
 */
module IndexRandom {
  import opened Common
  import opened IndexPlan
  import opened InFlight

  /** The asynchronous failures among the first `n` submissions, in submission order;
      `reply(i)` is the outcome of the i-th single-document call. */
  function Failures(batch: seq<IndexRequest>, reply: nat -> Option<Cause>, n: nat): (es: seq<IndexError>)
    requires n <= |batch|
    ensures |es| <= n
    decreases n
  {
    if n == 0 then []
    else
      var before := Failures(batch, reply, n - 1);
      var last := if reply(n - 1).Some? then [IndexError(batch[n - 1], reply(n - 1).value)] else [];
      before + last
  }

  /** One more submission adds its failure, if any, at the end. */
  lemma FailuresGrow(batch: seq<IndexRequest>, reply: nat -> Option<Cause>, i: nat)
    requires i < |batch|
    ensures Failures(batch, reply, i + 1)
         == Failures(batch, reply, i) + (if reply(i).Some? then [IndexError(batch[i], reply(i).value)] else [])
  {
  }

  function IndexTickets(rs: seq<IndexRequest>): (ts: seq<Ticket>)
    ensures |ts| == |rs|
  {
    seq(|rs|, i requires 0 <= i < |rs| => IndexTicket(rs[i]))
  }

  function AdminTickets(cs: seq<AdminCall>): (ts: seq<Ticket>)
    ensures |ts| == |cs|
  {
    seq(|cs|, i requires 0 <= i < |cs| => AdminTicket(cs[i]))
  }

  /** The operations a one-by-one run has started: the asynchronous index calls, if the run is
      asynchronous, and the admin calls. */
  function Started(async: bool, submitted: seq<IndexRequest>, admin: seq<AdminCall>): seq<Ticket>
  {
    (if async then IndexTickets(submitted) else []) + AdminTickets(admin)
  }

  lemma IndexTicketsAppend(rs: seq<IndexRequest>, r: IndexRequest)
    ensures IndexTickets(rs + [r]) == IndexTickets(rs) + [IndexTicket(r)]
  {
    var lhs, rhs := IndexTickets(rs + [r]), IndexTickets(rs) + [IndexTicket(r)];
    forall i | 0 <= i < |lhs| ensures lhs[i] == rhs[i] {
      if i < |rs| {
        assert (rs + [r])[i] == rs[i];
      }
    }
  }

  lemma AdminTicketsAppend(cs: seq<AdminCall>, issued: Option<AdminCall>)
    ensures AdminTickets(cs + (if issued.Some? then [issued.value] else [])) == AdminTickets(cs) + Issued(issued)
  {
    var next := cs + (if issued.Some? then [issued.value] else []);
    var lhs, rhs := AdminTickets(next), AdminTickets(cs) + Issued(issued);
    forall i | 0 <= i < |lhs| ensures lhs[i] == rhs[i] {
      if i < |cs| {
        assert next[i] == cs[i];
      }
    }
  }

  lemma StartedGrows(async: bool, submitted: seq<IndexRequest>, admin: seq<AdminCall>,
                     r: IndexRequest, issued: Option<AdminCall>)
    ensures var next := admin + (if issued.Some? then [issued.value] else []);
      multiset(Started(async, submitted + [r], next))
      == multiset(Started(async, submitted, admin)) + multiset((if async then [IndexTicket(r)] else []) + Issued(issued))
  {
    AdminTicketsAppend(admin, issued);
    var b := AdminTickets(admin);
    if async {
      IndexTicketsAppend(submitted, r);
      Interleave(IndexTickets(submitted), [IndexTicket(r)], b, Issued(issued));
    } else {
      assert [] + (b + Issued(issued)) == b + Issued(issued);
      assert Started(false, submitted, admin) == b;
    }
  }

  /** Multiset union does not care about the order of the parts. */
  lemma Interleave<T>(a: seq<T>, b: seq<T>, c: seq<T>, d: seq<T>)
    ensures multiset(a + b + (c + d)) == multiset(a + c) + multiset(b + d)
  {
    assert multiset(a + b + (c + d)) == multiset(a) + multiset(b) + (multiset(c) + multiset(d));
    forall x ensures multiset(a + b + (c + d))[x] == (multiset(a + c) + multiset(b + d))[x] {
    }
  }

  lemma PrefixGrows<T>(s: seq<T>, i: nat)
    requires i < |s|
    ensures s[..i + 1] == s[..i] + [s[i]]
  {
  }

  /** Every admin call targets the batch's indices, and none flushes unless flushing is allowed;
      appending the call one step starts keeps both. */
  lemma AdminStaysWithin(admin: seq<AdminCall>, issued: Option<AdminCall>, indices: set<string>, maybeFlush: bool)
    requires forall j :: 0 <= j < |admin| ==> admin[j].indices == indices && (!maybeFlush ==> !Flushes(admin[j]))
    requires issued.Some? ==> issued.value.indices == indices && (Flushes(issued.value) ==> maybeFlush)
    ensures var next := admin + (if issued.Some? then [issued.value] else []);
      forall j :: 0 <= j < |next| ==> next[j].indices == indices && (!maybeFlush ==> !Flushes(next[j]))
  {
    var next := admin + (if issued.Some? then [issued.value] else []);
    forall j | 0 <= j < |next|
      ensures next[j].indices == indices && (!maybeFlush ==> !Flushes(next[j]))
    {
      if j < |admin| {
        assert next[j] == admin[j];
      }
    }
  }

  /** One in-flight step loses no operation: what was outstanding or awaited, plus what the
      step started, is afterwards outstanding or awaited. */
  lemma TicketsConserved(async: bool, submitted: seq<IndexRequest>, admin: seq<AdminCall>, r: IndexRequest,
                         issued: Option<AdminCall>, outstanding: seq<Ticket>, awaited: seq<Ticket>,
                         rem: seq<Ticket>, aw: seq<Ticket>)
    requires multiset(outstanding) + multiset(awaited) == multiset(Started(async, submitted, admin))
    requires multiset(rem) + multiset(aw)
      == multiset(outstanding + (if async then [IndexTicket(r)] else []) + Issued(issued))
    ensures multiset(rem) + multiset(awaited + aw)
      == multiset(Started(async, submitted + [r], admin + (if issued.Some? then [issued.value] else [])))
  {
    var started: seq<Ticket> := if async then [IndexTicket(r)] else [];
    var t := started + Issued(issued);
    StartedGrows(async, submitted, admin, r, issued);
    assert outstanding + started + Issued(issued) == outstanding + t;
    assert multiset(awaited + aw) == multiset(awaited) + multiset(aw);
    MultisetBalance(multiset(rem), multiset(aw), multiset(outstanding), multiset(awaited), multiset(t),
                    multiset(Started(async, submitted, admin)),
                    multiset(Started(async, submitted + [r], admin + (if issued.Some? then [issued.value] else []))));
  }

  /** The bookkeeping of one step, as multiset algebra: what is kept plus what is awaited now
      equals what was outstanding plus what was started. */
  lemma MultisetBalance<T>(kept: multiset<T>, awaitedNow: multiset<T>, outstanding: multiset<T>,
                           awaited: multiset<T>, started: multiset<T>, before: multiset<T>, after: multiset<T>)
    requires kept + awaitedNow == outstanding + started
    requires outstanding + awaited == before
    requires after == before + started
    ensures kept + (awaited + awaitedNow) == after
  {
    forall x ensures (kept + (awaited + awaitedNow))[x] == after[x] {
      assert (kept + awaitedNow)[x] == (outstanding + started)[x];
      assert (outstanding + awaited)[x] == before[x];
    }
  }

  /** The state of a one-by-one run between documents. */
  datatype Progress = Progress(
    submitted: seq<IndexRequest>, admin: seq<AdminCall>, outstanding: seq<Ticket>,
    awaited: seq<Ticket>, errors: seq<IndexError>, peak: nat)

  /** What holds after the first `i` documents: they were submitted in order, never more than
      MaxInFlightAsyncIndexes operations were left outstanding, every started operation is
      outstanding or awaited, asynchronous failures were recorded in order, and synchronous
      calls all succeeded. */
  ghost predicate Sound(batch: seq<IndexRequest>, i: nat, async: bool, indices: set<string>, maybeFlush: bool,
                        reply: nat -> Option<Cause>, p: Progress)
  {
    && i <= |batch|
    && p.submitted == batch[..i]
    && p.peak <= MaxInFlightAsyncIndexes && |p.outstanding| <= MaxInFlightAsyncIndexes
    && (async ==> p.errors == Failures(batch, reply, i))
    && (!async ==> p.errors == [] && forall j :: 0 <= j < i ==> reply(j).None?)
    && multiset(p.outstanding) + multiset(p.awaited) == multiset(Started(async, p.submitted, p.admin))
    && (!maybeFlush ==> forall j :: 0 <= j < |p.admin| ==> !Flushes(p.admin[j]))
    && (forall j :: 0 <= j < |p.admin| ==> p.admin[j].indices == indices)
  }

  /** Document `i` is sent (its failure, if asynchronous, recorded) and the in-flight step runs. */
  method Advance(batch: seq<IndexRequest>, i: nat, async: bool, indices: set<string>, maybeFlush: bool,
                 d: PostDraw, reply: nat -> Option<Cause>, p: Progress)
    returns (q: Progress)
    requires i < |batch| && Sound(batch, i, async, indices, maybeFlush, reply, p)
    requires async || reply(i).None?
    ensures q.submitted == batch[..i + 1]
    ensures q.peak <= MaxInFlightAsyncIndexes && |q.outstanding| <= MaxInFlightAsyncIndexes
    ensures async ==> q.errors == Failures(batch, reply, i + 1)
    ensures !async ==> q.errors == []
    ensures multiset(q.outstanding) + multiset(q.awaited) == multiset(Started(async, q.submitted, q.admin))
    ensures forall j :: 0 <= j < |q.admin| ==> q.admin[j].indices == indices && (!maybeFlush ==> !Flushes(q.admin[j]))
  {
    var r := batch[i];
    var started: seq<Ticket> := if async then [IndexTicket(r)] else [];
    var errors := if async && reply(i).Some? then p.errors + [IndexError(r, reply(i).value)] else p.errors;
    FailuresGrow(batch, reply, i);
    var rem, aw, issued := PostIndexAsyncActions(indices, p.outstanding + started, maybeFlush, d);
    var admin := p.admin + (if issued.Some? then [issued.value] else []);
    AdminStaysWithin(p.admin, issued, indices, maybeFlush);
    TicketsConserved(async, p.submitted, p.admin, r, issued, p.outstanding, p.awaited, rem, aw);
    PrefixGrows(batch, i);
    var peak := if |rem| > p.peak then |rem| else p.peak;
    assert peak <= MaxInFlightAsyncIndexes;
    q := Progress(p.submitted + [r], admin, rem, p.awaited + aw, errors, peak);
  }

  /** The one-by-one loop. An asynchronous call's failure is recorded and the loop goes on; a
      synchronous call's failure ends the loop at once, before its in-flight step. */
  method RunOneByOne(batch: seq<IndexRequest>, async: bool, indices: set<string>, maybeFlush: bool,
                     post: nat -> PostDraw, reply: nat -> Option<Cause>)
    returns (p: Progress, failure: Option<IndexError>)
    ensures failure.None? ==> Sound(batch, |batch|, async, indices, maybeFlush, reply, p)
    ensures async ==> failure.None?
    ensures failure.Some? ==>
      && 1 <= |p.submitted| <= |batch|
      && p.submitted == batch[..|p.submitted|]
      && reply(|p.submitted| - 1).Some?
      && failure.value == IndexError(batch[|p.submitted| - 1], reply(|p.submitted| - 1).value)
      && (forall i :: 0 <= i < |p.submitted| - 1 ==> reply(i).None?)
      && p.peak <= MaxInFlightAsyncIndexes
      && (!maybeFlush ==> forall j :: 0 <= j < |p.admin| ==> !Flushes(p.admin[j]))
  {
    p := Progress([], [], [], [], [], 0);
    failure := None;
    var i := 0;
    while i < |batch|
      invariant Sound(batch, i, async, indices, maybeFlush, reply, p)
    {
      if !async && reply(i).Some? {
        failure := Some(IndexError(batch[i], reply(i).value));
        PrefixGrows(batch, i);
        p := p.(submitted := p.submitted + [batch[i]]);
        return;
      }
      p := Advance(batch, i, async, indices, maybeFlush, post(i), reply, p);
      i := i + 1;
    }
  }

  /** The position of the first bulk request, from `from` on, that reports item failures. */
  function FirstFailedBulk(count: nat, failed: nat -> bool, from: nat): (j: Option<nat>)
    requires from <= count
    ensures j.None? <==> forall i :: from <= i < count ==> !failed(i)
    ensures j.Some? ==>
      && from <= j.value < count && failed(j.value)
      && (forall i :: from <= i < j.value ==> !failed(i))
    decreases count - from
  {
    if from == count then None
    else if failed(from) then Some(from)
    else FirstFailedBulk(count, failed, from + 1)
  }

  /** The random draws of one call: the injection coin and choices, the id counter before the
      call, the shuffle draws, the strategy draws, and the in-flight draws for each document. */
  datatype Dice = Dice(
    injectCoin: bool, picks: seq<DecoyPick>, counter: nat, shuffle: nat -> nat,
    frequently: bool, rarely: bool, async: bool, fraction: nat, post: nat -> PostDraw)

  /** The cluster's answers: to each single-document index call, to each bulk request (whether
      it reports item failures), to each re-execution of a rejected write, to each decoy delete,
      and to the final refresh. */
  datatype Replies = Replies(
    index: nat -> Option<Cause>, bulkFailed: nat -> bool, retry: nat -> Option<Cause>,
    delete: nat -> DocWriteResult, refreshFailed: bool)

  /** Why the call threw or failed an assertion. */
  datatype IndexFailure =
    | SyncIndexFailed(error: IndexError)
    | BulkItemsFailed(chunk: nat)
    | RetryRejected(request: IndexRequest, cause: Cause)
    | ErrorsRemain(errors: seq<IndexError>)
    | DecoyNotDeleted(doc: DecoyDoc)
    | RefreshFailed

  /** Everything one call did, in the order it did it. */
  datatype Run = Run(
    batch: seq<IndexRequest>, decoys: seq<DecoyDoc>, counter: nat, strategy: Strategy,
    submitted: seq<IndexRequest>, bulks: seq<seq<IndexRequest>>, admin: seq<AdminCall>,
    awaited: seq<Ticket>, peakInFlight: nat, retried: seq<IndexRequest>,
    deletes: seq<DeleteRequest>, finalRefresh: bool, outcome: Outcome<IndexFailure>)

  /** The sending phase: bulk chunks, or one document at a time followed by the wait on every
      operation still outstanding. */
  datatype Sent = Sent(
    submitted: seq<IndexRequest>, bulks: seq<seq<IndexRequest>>, admin: seq<AdminCall>,
    awaited: seq<Ticket>, peak: nat, errors: seq<IndexError>, outcome: Outcome<IndexFailure>)

  /** Reference condition for the sending phase to return normally: every bulk request is free
      of item failures, every synchronous index call succeeds; asynchronous calls never throw
      here, their failures are reconciled later. */
  predicate SendPasses(batch: seq<IndexRequest>, strategy: Strategy, replies: Replies)
  {
    match strategy
    case Bulk(size) => size >= 1 && forall j :: 0 <= j < |Partition(batch, size)| ==> !replies.bulkFailed(j)
    case SyncOneByOne => forall i :: 0 <= i < |batch| ==> replies.index(i).None?
    case AsyncOneByOne => true
  }

  /** The asynchronous errors the sending phase hands on to reconciliation. */
  function SentErrors(batch: seq<IndexRequest>, strategy: Strategy, replies: Replies): seq<IndexError>
  {
    if strategy.AsyncOneByOne? then Failures(batch, replies.index, |batch|) else []
  }

  /** What the sending phase reports when it throws: the first bulk request with item failures
      (every earlier one was sent and clean), or the first failing synchronous index call
      (every earlier document was sent and succeeded). */
  predicate SendFailure(batch: seq<IndexRequest>, strategy: Strategy, replies: Replies,
                        submitted: seq<IndexRequest>, bulks: seq<seq<IndexRequest>>, e: IndexFailure)
  {
    match e
    case BulkItemsFailed(chunk) =>
      && strategy.Bulk? && strategy.chunkSize >= 1
      && var chunks := Partition(batch, strategy.chunkSize);
      && chunk < |chunks|
      && replies.bulkFailed(chunk)
      && (forall j :: 0 <= j < chunk ==> !replies.bulkFailed(j))
      && bulks == chunks[..chunk + 1]
    case SyncIndexFailed(error) =>
      && strategy.SyncOneByOne?
      && 1 <= |submitted| <= |batch|
      && submitted == batch[..|submitted|]
      && replies.index(|submitted| - 1).Some?
      && error == IndexError(batch[|submitted| - 1], replies.index(|submitted| - 1).value)
      && (forall i :: 0 <= i < |submitted| - 1 ==> replies.index(i).None?)
    case _ => false
  }

  /** The bulk path: the batch is cut into chunks of `size` and each is sent in turn; the
      first one reporting item failures throws. */
  method SendInBulk(batch: seq<IndexRequest>, size: nat, replies: Replies) returns (s: Sent)
    requires size >= 1
    ensures s.submitted == [] && s.admin == [] && s.awaited == [] && s.errors == [] && s.peak == 0
    ensures s.outcome.Pass? <==> SendPasses(batch, Bulk(size), replies)
    ensures s.outcome.Pass? ==> s.bulks == Partition(batch, size)
    ensures s.outcome.Fail? ==> SendFailure(batch, Bulk(size), replies, s.submitted, s.bulks, s.outcome.error)
  {
    var chunks := Partition(batch, size);
    var failedAt := FirstFailedBulk(|chunks|, replies.bulkFailed, 0);
    if failedAt.Some? {
      s := Sent([], chunks[..failedAt.value + 1], [], [], 0, [], Fail(BulkItemsFailed(failedAt.value)));
    } else {
      s := Sent([], chunks, [], [], 0, [], Pass);
    }
  }

  /** The one-by-one path: the loop, then the wait on every operation still outstanding. */
  method SendOneByOne(batch: seq<IndexRequest>, async: bool, indices: set<string>, maybeFlush: bool,
                      post: nat -> PostDraw, replies: Replies)
    returns (s: Sent)
    ensures s.bulks == []
    ensures s.peak <= MaxInFlightAsyncIndexes
    ensures !maybeFlush ==> forall i :: 0 <= i < |s.admin| ==> !Flushes(s.admin[i])
    ensures s.outcome.Pass? <==> SendPasses(batch, if async then AsyncOneByOne else SyncOneByOne, replies)
    ensures s.outcome.Pass? ==>
      && s.submitted == batch
      && multiset(s.awaited) == multiset(Started(async, s.submitted, s.admin))
      && s.errors == (if async then Failures(batch, replies.index, |batch|) else [])
    ensures s.outcome.Fail? ==>
      !async && SendFailure(batch, SyncOneByOne, replies, s.submitted, s.bulks, s.outcome.error)
  {
    var p, failure := RunOneByOne(batch, async, indices, maybeFlush, post, replies.index);
    if failure.Some? {
      s := Sent(p.submitted, [], p.admin, p.awaited, p.peak, p.errors, Fail(SyncIndexFailed(failure.value)));
    } else {
      assert batch[..|batch|] == batch;
      s := Sent(p.submitted, [], p.admin, p.awaited + p.outstanding, p.peak, p.errors, Pass);
    }
  }

  method Send(batch: seq<IndexRequest>, strategy: Strategy, indices: set<string>, maybeFlush: bool,
              post: nat -> PostDraw, replies: Replies)
    returns (s: Sent)
    requires strategy.Bulk? ==> strategy.chunkSize >= 1
    ensures s.peak <= MaxInFlightAsyncIndexes
    ensures !maybeFlush ==> forall i :: 0 <= i < |s.admin| ==> !Flushes(s.admin[i])
    ensures strategy.Bulk? ==> s.submitted == [] && s.admin == [] && s.awaited == [] && s.errors == []
    ensures strategy.Bulk? && s.outcome.Pass? ==>
      Flatten(s.bulks) == batch
      && (forall i :: 0 <= i < |s.bulks| ==> 1 <= |s.bulks[i]| <= strategy.chunkSize)
      && (forall j :: 0 <= j < |s.bulks| ==> !replies.bulkFailed(j))
    ensures strategy.Bulk? && s.outcome.Fail? ==>
      s.outcome.error.BulkItemsFailed? && replies.bulkFailed(s.outcome.error.chunk)
    ensures !strategy.Bulk? ==> s.bulks == []
    ensures !strategy.Bulk? && s.outcome.Pass? ==>
      && s.submitted == batch
      && multiset(s.awaited) == multiset(Started(strategy.AsyncOneByOne?, s.submitted, s.admin))
      && s.errors == (if strategy.AsyncOneByOne? then Failures(batch, replies.index, |batch|) else [])
    ensures !strategy.Bulk? && s.outcome.Fail? ==> strategy.SyncOneByOne? && s.outcome.error.SyncIndexFailed?
    ensures s.outcome.Pass? <==> SendPasses(batch, strategy, replies)
    ensures s.outcome.Pass? ==> s.errors == SentErrors(batch, strategy, replies)
    ensures strategy.Bulk? && s.outcome.Pass? ==> s.bulks == Partition(batch, strategy.chunkSize)
    ensures s.outcome.Fail? ==> SendFailure(batch, strategy, replies, s.submitted, s.bulks, s.outcome.error)
  {
    if strategy.Bulk? {
      s := SendInBulk(batch, strategy.chunkSize, replies);
    } else {
      s := SendOneByOne(batch, strategy.AsyncOneByOne?, indices, maybeFlush, post, replies);
    }
  }


  /** The closing phase: reconcile the asynchronous errors, delete the decoys, refresh. */
  datatype Finished = Finished(
    retried: seq<IndexRequest>, deletes: seq<DeleteRequest>, finalRefresh: bool, outcome: Outcome<IndexFailure>)

  /** Every re-execution of a rejected write succeeds. */
  predicate RetriesSucceed(errors: seq<IndexError>, replies: Replies)
  {
    forall j :: 0 <= j < |RejectedRequests(errors)| ==> replies.retry(j).None?
  }

  /** Every decoy delete reports the document deleted. */
  predicate DecoysDeleted(decoys: seq<DecoyDoc>, replies: Replies)
  {
    forall i :: 0 <= i < |decoys| ==> replies.delete(i) == Deleted
  }

  /** Reference condition for the closing phase to return normally. */
  predicate FinishPasses(errors: seq<IndexError>, decoys: seq<DecoyDoc>, forceRefresh: bool, replies: Replies)
  {
    && RetriesSucceed(errors, replies)
    && Kept(errors) == []
    && DecoysDeleted(decoys, replies)
    && !(forceRefresh && replies.refreshFailed)
  }

  /** What the closing phase reports when it throws, always the first failing step: the first
      re-execution that fails (every earlier one succeeded), the errors that are not
      rejections, the first decoy delete that does not report DELETED, or the final refresh. */
  predicate FinishFailure(errors: seq<IndexError>, decoys: seq<DecoyDoc>, forceRefresh: bool, replies: Replies,
                          retried: seq<IndexRequest>, deletes: seq<DeleteRequest>, e: IndexFailure)
  {
    match e
    case RetryRejected(request, cause) =>
      var rejected := RejectedRequests(errors);
      && |retried| < |rejected|
      && retried == rejected[..|retried|]
      && request == rejected[|retried|]
      && replies.retry(|retried|) == Some(cause)
      && (forall j :: 0 <= j < |retried| ==> replies.retry(j).None?)
    case ErrorsRemain(kept) =>
      RetriesSucceed(errors, replies) && kept == Kept(errors) && kept != []
    case DecoyNotDeleted(_) =>
      RetriesSucceed(errors, replies) && Kept(errors) == [] && RetractFailure(decoys, forceRefresh, replies, deletes, e)
    case RefreshFailed =>
      RetriesSucceed(errors, replies) && Kept(errors) == [] && RetractFailure(decoys, forceRefresh, replies, deletes, e)
    case _ => false
  }

  /** How the closing steps after the retries can fail: the first decoy delete that does not
      report DELETED, or, once every decoy is deleted, the forced refresh. */
  predicate RetractFailure(decoys: seq<DecoyDoc>, forceRefresh: bool, replies: Replies,
                           deletes: seq<DeleteRequest>, e: IndexFailure)
  {
    match e
    case DecoyNotDeleted(doc) =>
      && 1 <= |deletes| <= |decoys|
      && doc == decoys[|deletes| - 1]
      && replies.delete(|deletes| - 1) != Deleted
      && (forall i :: 0 <= i < |deletes| - 1 ==> replies.delete(i) == Deleted)
    case RefreshFailed =>
      DecoysDeleted(decoys, replies) && forceRefresh && replies.refreshFailed
    case _ => false
  }

  method Finish(errors: seq<IndexError>, decoys: seq<DecoyDoc>, forceRefresh: bool, replies: Replies) returns (f: Finished)
    ensures errors == [] ==> f.retried == []
    ensures f.outcome.Fail? ==> !f.outcome.error.SyncIndexFailed? && !f.outcome.error.BulkItemsFailed?
    ensures f.outcome.Pass? ==> f.retried == RejectedRequests(errors) && Kept(errors) == []
    ensures f.outcome.Fail? && f.outcome.error.ErrorsRemain? ==>
      && f.outcome.error.errors == Kept(errors)
      && |f.outcome.error.errors| > 0
      && forall i :: 0 <= i < |f.outcome.error.errors| ==> !IsRejection(f.outcome.error.errors[i].cause)
    ensures f.outcome.Pass? ==>
      && f.deletes == DeleteRequests(decoys)
      && (forall i :: 0 <= i < |decoys| ==> replies.delete(i) == Deleted)
    ensures f.finalRefresh ==> forceRefresh
    ensures f.outcome.Pass? ==> f.finalRefresh == forceRefresh && !(forceRefresh && replies.refreshFailed)
    ensures f.outcome.Pass? <==> FinishPasses(errors, decoys, forceRefresh, replies)
    ensures f.outcome.Fail? ==> FinishFailure(errors, decoys, forceRefresh, replies, f.retried, f.deletes, f.outcome.error)
  {
    var rec := Reconcile(errors, replies.retry, 0);
    ReconcileSucceedsIff(errors, replies.retry, 0);
    if rec.RetryFailed? {
      ReconcileStopsAtFailedRetry(errors, replies.retry, 0);
      assert !RetriesSucceed(errors, replies);
      f := Finished(rec.retried, [], false, Fail(RetryRejected(rec.request, rec.cause)));
      return;
    }
    ReconcileMatchesFilters(errors, replies.retry, 0);
    assert RetriesSucceed(errors, replies) && rec.kept == Kept(errors);
    if |rec.kept| > 0 {
      KeptAndRetriedSplitErrors(errors);
      f := Finished(rec.retried, [], false, Fail(ErrorsRemain(rec.kept)));
    } else {
      f := Retract(rec.retried, decoys, forceRefresh, replies);
    }
  }

  /** The closing steps once every retry succeeded and no other error remains: delete the
      decoys, then the forced refresh. */
  method Retract(retried: seq<IndexRequest>, decoys: seq<DecoyDoc>, forceRefresh: bool, replies: Replies)
    returns (f: Finished)
    ensures f.retried == retried
    ensures f.outcome.Fail? ==> f.outcome.error.DecoyNotDeleted? || f.outcome.error.RefreshFailed?
    ensures f.outcome.Pass? ==>
      && f.deletes == DeleteRequests(decoys)
      && f.finalRefresh == forceRefresh
    ensures f.finalRefresh ==> forceRefresh
    ensures f.outcome.Pass? <==> DecoysDeleted(decoys, replies) && !(forceRefresh && replies.refreshFailed)
    ensures f.outcome.Fail? ==> RetractFailure(decoys, forceRefresh, replies, f.deletes, f.outcome.error)
  {
    var deletion := DeleteDecoys(decoys, replies.delete);
    if deletion.outcome.Fail? {
      f := Finished(retried, deletion.issued, false, Fail(DecoyNotDeleted(deletion.outcome.error)));
    } else if forceRefresh && replies.refreshFailed {
      f := Finished(retried, deletion.issued, true, Fail(RefreshFailed));
    } else {
      f := Finished(retried, deletion.issued, forceRefresh, Pass);
    }
  }

  /** The batch actually sent: the caller's requests plus any decoys, shuffled. */
  datatype Prepared = Prepared(batch: seq<IndexRequest>, decoys: seq<DecoyDoc>, counter: nat)

  function Prepare(builders: seq<IndexRequest>, dummyDocuments: bool, dice: Dice): (p: Prepared)
    requires Injects(builders, dummyDocuments, dice.injectCoin) ==> 1 <= |dice.picks| <= 2 * |builders|
    ensures multiset(p.batch) == multiset(builders + DecoyRequests(p.decoys))
    ensures TargetIndices(p.batch) == TargetIndices(builders)
    ensures |p.decoys| > 0 <==> Injects(builders, dummyDocuments, dice.injectCoin)
    ensures forall i :: 0 <= i < |p.decoys| ==>
      p.decoys[i].id.Bogus? && PairPresent(builders, p.decoys[i].index, p.decoys[i].docType)
    ensures p.counter == dice.counter + |p.decoys|
  {
    var inj := InjectDecoys(builders, dummyDocuments, dice.injectCoin, dice.picks, dice.counter);
    var batch := Shuffle(inj.batch, dice.shuffle);
    PermutationKeepsTargets(batch, inj.batch);
    Prepared(batch, inj.decoys, inj.counter)
  }

  /** Sends a prepared batch with the chosen strategy and closes the call. */
  method Execute(prepared: Prepared, strategy: Strategy, indices: set<string>, forceRefresh: bool, maybeFlush: bool,
                 post: nat -> PostDraw, replies: Replies)
    returns (run: Run)
    requires strategy.Bulk? ==> strategy.chunkSize >= 1
    ensures run.batch == prepared.batch && run.decoys == prepared.decoys && run.counter == prepared.counter
    ensures run.strategy == strategy
    // how it is sent
    ensures run.peakInFlight <= MaxInFlightAsyncIndexes
    ensures run.strategy.Bulk? ==> run.submitted == [] && run.admin == [] && run.awaited == [] && run.retried == []
    ensures run.strategy.Bulk? && run.outcome.Pass? ==>
      Flatten(run.bulks) == run.batch
      && forall i :: 0 <= i < |run.bulks| ==> 1 <= |run.bulks[i]| <= run.strategy.chunkSize
    ensures !run.strategy.Bulk? ==> run.bulks == []
    ensures !run.strategy.Bulk? && !(run.outcome.Fail? && run.outcome.error.SyncIndexFailed?) ==>
      run.submitted == run.batch
      && multiset(run.awaited) == multiset(Started(run.strategy.AsyncOneByOne?, run.submitted, run.admin))
    ensures run.outcome.Fail? && run.outcome.error.SyncIndexFailed? ==> run.strategy.SyncOneByOne?
    ensures !maybeFlush ==> forall i :: 0 <= i < |run.admin| ==> !Flushes(run.admin[i])
    // errors, decoys and the final refresh
    ensures !run.strategy.AsyncOneByOne? ==> run.retried == []
    ensures run.strategy.AsyncOneByOne? && run.outcome.Pass? ==>
      var errors := Failures(run.batch, replies.index, |run.batch|);
      run.retried == RejectedRequests(errors) && Kept(errors) == []
    ensures run.outcome.Fail? && run.outcome.error.ErrorsRemain? ==>
      |run.outcome.error.errors| > 0
      && forall i :: 0 <= i < |run.outcome.error.errors| ==> !IsRejection(run.outcome.error.errors[i].cause)
    ensures run.outcome.Pass? ==>
      run.deletes == DeleteRequests(run.decoys)
      && forall i :: 0 <= i < |run.decoys| ==> replies.delete(i) == Deleted
    ensures run.finalRefresh ==> forceRefresh
    ensures run.outcome.Pass? ==> run.finalRefresh == forceRefresh && !(forceRefresh && replies.refreshFailed)
    // whether the call fails, and which failure it reports
    ensures run.outcome.Pass? <==>
      && SendPasses(run.batch, run.strategy, replies)
      && FinishPasses(SentErrors(run.batch, run.strategy, replies), run.decoys, forceRefresh, replies)
    ensures !SendPasses(run.batch, run.strategy, replies) <==>
      run.outcome.Fail? && (run.outcome.error.SyncIndexFailed? || run.outcome.error.BulkItemsFailed?)
    ensures !SendPasses(run.batch, run.strategy, replies) ==>
      SendFailure(run.batch, run.strategy, replies, run.submitted, run.bulks, run.outcome.error)
    ensures SendPasses(run.batch, run.strategy, replies) && run.outcome.Fail? ==>
      FinishFailure(SentErrors(run.batch, run.strategy, replies), run.decoys, forceRefresh, replies,
                    run.retried, run.deletes, run.outcome.error)
  {
    var batch := prepared.batch;
    var s := Send(batch, strategy, indices, maybeFlush, post, replies);
    if s.outcome.Fail? {
      assert !SendPasses(batch, strategy, replies);
      run := Run(batch, prepared.decoys, prepared.counter, strategy, s.submitted, s.bulks, s.admin, s.awaited, s.peak,
                 [], [], false, s.outcome);
    } else {
      assert SendPasses(batch, strategy, replies) && s.errors == SentErrors(batch, strategy, replies);
      var f := Finish(s.errors, prepared.decoys, forceRefresh, replies);
      assert f.outcome.Pass? <==> FinishPasses(s.errors, prepared.decoys, forceRefresh, replies);
      run := Run(batch, prepared.decoys, prepared.counter, strategy, s.submitted, s.bulks, s.admin, s.awaited, s.peak,
                 f.retried, f.deletes, f.finalRefresh, f.outcome);
    }
  }

  method IndexRandom(forceRefresh: bool, dummyDocuments: bool, maybeFlush: bool,
                     builders: seq<IndexRequest>, dice: Dice, replies: Replies)
    returns (run: Run)
    requires Injects(builders, dummyDocuments, dice.injectCoin) ==> 1 <= |dice.picks| <= 2 * |builders|
    // the batch is the prepared one: the caller's documents plus the decoys, shuffled
    ensures var p := Prepare(builders, dummyDocuments, dice);
      run.batch == p.batch && run.decoys == p.decoys && run.counter == p.counter
    // how it is sent
    ensures run.strategy == ChooseStrategy(|run.batch|, dice.frequently, dice.rarely, dice.async, dice.fraction)
    ensures run.peakInFlight <= MaxInFlightAsyncIndexes
    ensures run.strategy.Bulk? ==> run.submitted == [] && run.admin == [] && run.awaited == [] && run.retried == []
    ensures run.strategy.Bulk? && run.outcome.Pass? ==>
      Flatten(run.bulks) == run.batch
      && forall i :: 0 <= i < |run.bulks| ==> 1 <= |run.bulks[i]| <= run.strategy.chunkSize
    ensures !run.strategy.Bulk? ==> run.bulks == []
    ensures !run.strategy.Bulk? && !(run.outcome.Fail? && run.outcome.error.SyncIndexFailed?) ==>
      run.submitted == run.batch
      && multiset(run.awaited) == multiset(Started(run.strategy.AsyncOneByOne?, run.submitted, run.admin))
    ensures run.outcome.Fail? && run.outcome.error.SyncIndexFailed? ==> run.strategy.SyncOneByOne?
    ensures !maybeFlush ==> forall i :: 0 <= i < |run.admin| ==> !Flushes(run.admin[i])
    // errors, decoys and the final refresh
    ensures !run.strategy.AsyncOneByOne? ==> run.retried == []
    ensures run.strategy.AsyncOneByOne? && run.outcome.Pass? ==>
      var errors := Failures(run.batch, replies.index, |run.batch|);
      run.retried == RejectedRequests(errors) && Kept(errors) == []
    ensures run.outcome.Fail? && run.outcome.error.ErrorsRemain? ==>
      |run.outcome.error.errors| > 0
      && forall i :: 0 <= i < |run.outcome.error.errors| ==> !IsRejection(run.outcome.error.errors[i].cause)
    ensures run.outcome.Pass? ==>
      run.deletes == DeleteRequests(run.decoys)
      && forall i :: 0 <= i < |run.decoys| ==> replies.delete(i) == Deleted
    ensures run.finalRefresh ==> forceRefresh
    ensures run.outcome.Pass? ==> run.finalRefresh == forceRefresh && !(forceRefresh && replies.refreshFailed)
    // whether the call fails, and which failure it reports
    ensures run.outcome.Pass? <==>
      && SendPasses(run.batch, run.strategy, replies)
      && FinishPasses(SentErrors(run.batch, run.strategy, replies), run.decoys, forceRefresh, replies)
    ensures !SendPasses(run.batch, run.strategy, replies) <==>
      run.outcome.Fail? && (run.outcome.error.SyncIndexFailed? || run.outcome.error.BulkItemsFailed?)
    ensures !SendPasses(run.batch, run.strategy, replies) ==>
      SendFailure(run.batch, run.strategy, replies, run.submitted, run.bulks, run.outcome.error)
    ensures SendPasses(run.batch, run.strategy, replies) && run.outcome.Fail? ==>
      FinishFailure(SentErrors(run.batch, run.strategy, replies), run.decoys, forceRefresh, replies,
                    run.retried, run.deletes, run.outcome.error)
  {
    var prepared := Prepare(builders, dummyDocuments, dice);
    var strategy := ChooseStrategy(|prepared.batch|, dice.frequently, dice.rarely, dice.async, dice.fraction);
    run := Execute(prepared, strategy, TargetIndices(builders), forceRefresh, maybeFlush, dice.post, replies);
  }
}

=== FILE: registry.dfy ===
/**
 * The static registry of test clusters: a map from test class to its cluster, the set of
 * clusters that have been closed, and the lifecycle steps that run before and after each
 * test (buildAndPutCluster, clearClusters, afterInternal, afterClass).
 */
module ClusterRegistry {
  import opened Common
  import opened ClusterScopes
  import StateConsistency

  /** Identity of a test class. */
  type ClassId = string

  /** One built cluster; `id` is its identity, fresh for every build. */
  datatype Handle = Handle(id: nat, spec: ClusterSpec)

  /** The registry map, the ids of clusters whose close has been attempted, the next fresh id,
      and whether the shared REST client is open. */
  datatype Registry = Registry(clusters: map<ClassId, Handle>, closed: set<nat>, nextId: nat, restClientOpen: bool)

  /** Why a lifecycle step throws: a close while clearing the registry (of a cluster or of the
      REST client), a cluster build, one
      of the steps run against the cluster after a test, or the static-state check after a
      suite-scoped class. */
  datatype RegistryError =
    | CloseFailed
    | RestClientCloseFailed
    | BuildFailed(cause: BuildError)
    | LeftoverMetadata
    | SizeInconsistent
    | StateInconsistent(report: StateConsistency.Report)
    | DisruptionNotCleared
    | BeforeIndexDeletionFailed
    | WipeFailed
    | ClusterCloseFailed
    | AfterTestFailed
    | StaticStateDirty

  /** The registry keeps at most one class, and every id it knows was handed out. */
  ghost predicate Valid(reg: Registry)
  {
    && (forall c, d :: c in reg.clusters && d in reg.clusters ==> c == d)
    && (forall c :: c in reg.clusters ==> reg.clusters[c].id < reg.nextId)
    && (forall id :: id in reg.closed ==> id < reg.nextId)
  }

  /** The ids of the clusters a map holds. */
  function CachedIds(m: map<ClassId, Handle>): set<nat>
  {
    set c | c in m :: m[c].id
  }

  /** A registry state together with the outcome of the step that produced it. */
  datatype Step = Step(reg: Registry, outcome: Outcome<RegistryError>)

  /** Which closes throw when the registry is cleared: closing some cached cluster, and closing
      the shared REST client. */
  datatype CloseFaults = CloseFaults(cluster: bool, restClient: bool)

  /** Closing the cached clusters throws; every close is still attempted. */
  predicate ClusterCloseThrows(reg: Registry, faults: CloseFaults)
  {
    faults.cluster && reg.clusters != map[]
  }

  /** Closing the REST client throws; only an open client is closed. */
  predicate RestCloseThrows(reg: Registry, faults: CloseFaults)
  {
    faults.restClient && reg.restClientOpen
  }

  /** clearClusters: close every cached cluster, then empty the map, then close the REST client.
      A throwing cluster close leaves the map and the client as they were; a throwing client
      close comes after the map was emptied and leaves the client open. */
  function ClearClusters(reg: Registry, faults: CloseFaults): (s: Step)
    ensures s.reg.closed == reg.closed + CachedIds(reg.clusters)
    ensures forall c :: c in reg.clusters ==> reg.clusters[c].id in s.reg.closed
    ensures s.reg.nextId == reg.nextId
    ensures s.outcome.Pass? <==> !ClusterCloseThrows(reg, faults) && !RestCloseThrows(reg, faults)
    ensures s.outcome.Pass? ==> s.reg.clusters == map[] && !s.reg.restClientOpen
    ensures ClusterCloseThrows(reg, faults) ==>
      s.outcome == Fail(CloseFailed) && s.reg.clusters == reg.clusters && s.reg.restClientOpen == reg.restClientOpen
    ensures !ClusterCloseThrows(reg, faults) && RestCloseThrows(reg, faults) ==>
      s.outcome == Fail(RestClientCloseFailed) && s.reg.clusters == map[] && s.reg.restClientOpen
    ensures Valid(reg) ==> Valid(s.reg)
  {
    var closedAll := reg.(closed := reg.closed + CachedIds(reg.clusters));
    if ClusterCloseThrows(reg, faults) then Step(closedAll, Fail(CloseFailed))
    else if RestCloseThrows(reg, faults) then Step(closedAll.(clusters := map[]), Fail(RestClientCloseFailed))
    else Step(closedAll.(clusters := map[], restClientOpen := false), Pass)
  }

  /** A registry state together with the cluster a step returned. */
  datatype Acquired = Acquired(reg: Registry, result: Result<Handle, RegistryError>)

  /** Registers a newly built cluster under `clazz`, or reports that building failed. */
  function Install(reg: Registry, clazz: ClassId, build: Result<ClusterSpec, BuildError>): Acquired
  {
    match build
    case Err(e) => Acquired(reg, Err(BuildFailed(e)))
    case Ok(spec) =>
      var h := Handle(reg.nextId, spec);
      Acquired(reg.(clusters := reg.clusters[clazz := h], nextId := reg.nextId + 1), Ok(h))
  }

  /** True when clearing the registry without `clazz` throws. */
  predicate ClearThrows(reg: Registry, clazz: ClassId, faults: CloseFaults)
  {
    (faults.cluster && reg.clusters - {clazz} != map[]) || RestCloseThrows(reg, faults)
  }

  /** Taking a class out of the map keeps the registry valid. */
  lemma ValidWithout(reg: Registry, clazz: ClassId)
    ensures Valid(reg) ==> Valid(reg.(clusters := reg.clusters - {clazz}))
  {
  }

  /** What buildAndPutCluster does once every other cluster is cleared (the map is then empty
      and the REST client closed): reuse the cached cluster (suite scope), or close it and build
      a new one (test scope). */
  function Acquire(cleared: Registry, clazz: ClassId, scope: Scope, cached: Option<Handle>,
                   build: Result<ClusterSpec, BuildError>): (a: Acquired)
    requires cleared.clusters == map[] && !cleared.restClientOpen
    ensures a.result.Ok? <==> (scope == Suite && cached.Some?) || build.Ok?
    ensures a.result.Ok? ==> a.reg.clusters == map[clazz := a.result.value]
    ensures a.result.Err? ==> a.reg.clusters == map[] && build.Err? && a.result == Err(BuildFailed(build.error))
    ensures !a.reg.restClientOpen
    ensures a.reg.closed == cleared.closed + (if scope == Test && cached.Some? then {cached.value.id} else {})
    ensures scope == Suite && cached.Some? ==> a.result == Ok(cached.value) && a.reg.nextId == cleared.nextId
    ensures (scope == Test || cached.None?) && a.result.Ok? ==>
      a.result.value == Handle(cleared.nextId, build.value) && a.reg.nextId == cleared.nextId + 1
    ensures a.result.Err? ==> a.reg.nextId == cleared.nextId
    ensures Valid(cleared) && (cached.Some? ==> cached.value.id < cleared.nextId) ==> Valid(a.reg)
  {
    match scope
    case Suite =>
      if cached.Some? then Acquired(cleared.(clusters := map[clazz := cached.value]), Ok(cached.value))
      else Install(cleared, clazz, build)
    case Test =>
      // the previous cluster is closed whatever happens; its close errors are swallowed
      var closedOld := if cached.Some? then cleared.(closed := cleared.closed + {cached.value.id}) else cleared;
      Install(closedOld, clazz, build)
  }

  /** buildAndPutCluster: take this class's cluster out of the map, clear every other one,
      then reuse it (suite scope) or close it and build a new one (test scope), and register
      the result as the only entry. `build` is what buildTestCluster returns when called. */
  function BuildAndPutCluster(reg: Registry, clazz: ClassId, scope: Scope, build: Result<ClusterSpec, BuildError>,
                              faults: CloseFaults): (a: Acquired)
    ensures Valid(reg) ==> Valid(a.reg)
    ensures a.result.Ok? ==> a.reg.clusters == map[clazz := a.result.value] && !a.reg.restClientOpen
    ensures reg.closed <= a.reg.closed
    ensures forall c :: c in reg.clusters && c != clazz ==> reg.clusters[c].id in a.reg.closed
    ensures a.result.Ok? <==> !ClearThrows(reg, clazz, faults) && ((scope == Suite && clazz in reg.clusters) || build.Ok?)
    ensures faults.cluster && reg.clusters - {clazz} != map[] ==>
      a.reg.clusters == reg.clusters - {clazz} && a.result == Err(CloseFailed)
    ensures !(faults.cluster && reg.clusters - {clazz} != map[]) && RestCloseThrows(reg, faults) ==>
      a.reg.clusters == map[] && a.result == Err(RestClientCloseFailed)
    ensures !ClearThrows(reg, clazz, faults) && a.result.Err? ==>
      a.reg.clusters == map[] && build.Err? && a.result == Err(BuildFailed(build.error))
    ensures Valid(reg) && a.result.Ok? ==> (a.result.value.id in a.reg.closed <==> a.result.value.id in reg.closed)
    ensures scope == Suite && clazz in reg.clusters && a.result.Ok? ==> a.result.value == reg.clusters[clazz]
    ensures (scope == Test || clazz !in reg.clusters) && a.result.Ok? ==>
      a.result.value == Handle(reg.nextId, build.value) && a.reg.nextId == reg.nextId + 1
    ensures scope == Test && clazz in reg.clusters && !ClearThrows(reg, clazz, faults) ==>
      reg.clusters[clazz].id in a.reg.closed
  {
    var cached := if clazz in reg.clusters then Some(reg.clusters[clazz]) else None;
    var others := reg.clusters - {clazz};
    ValidWithout(reg, clazz);
    assert forall c :: c in reg.clusters && c != clazz ==> c in others && others[c] == reg.clusters[c];
    var cleared := ClearClusters(reg.(clusters := others), faults);
    if cleared.outcome.Fail? then Acquired(cleared.reg, Err(cleared.outcome.error))
    else Acquire(cleared.reg, clazz, scope, cached, build)
  }

  /** The steps afterInternal runs against the current cluster, each saying whether it
      returns normally. `disruptionCleared` is the disruption-scheme reset of an internal
      cluster, run before everything else; `metadataClean` is only read outside the test scope;
      `closed` is the close of the current cluster itself, run only when the class is finished
      or the scope is per-test. */
  datatype TeardownChecks = TeardownChecks(
    disruptionCleared: bool,
    metadataClean: bool,
    sizeConsistent: bool,
    state: StateConsistency.Report,
    beforeIndexDeletion: bool,
    wiped: bool,
    closed: bool,
    afterTest: bool)

  /** Whether the disruption-scheme reset, which only an internal cluster runs, returns normally. */
  predicate DisruptionStepPasses(current: Option<Handle>, k: TeardownChecks)
  {
    current.None? || !current.value.spec.Internal? || k.disruptionCleared
  }

  /** Whether every check that precedes the close of the current cluster passes. */
  predicate PreCloseChecksPass(scope: Scope, k: TeardownChecks)
  {
    && (scope == Test || k.metadataClean)
    && k.sizeConsistent
    && StateConsistency.Acceptable(k.state)
    && k.beforeIndexDeletion
    && k.wiped
  }

  /** The first failing step after the disruption reset, in the order afterInternal runs them;
      `closes` says whether the current cluster is closed before the after-test check. */
  function FirstFailure(scope: Scope, closes: bool, k: TeardownChecks): (e: Option<RegistryError>)
    ensures e.None? <==> PreCloseChecksPass(scope, k) && (closes ==> k.closed) && k.afterTest
    ensures scope != Test && !k.metadataClean ==> e == Some(LeftoverMetadata)
    ensures (scope == Test || k.metadataClean) && !k.sizeConsistent ==> e == Some(SizeInconsistent)
    ensures (scope == Test || k.metadataClean) && k.sizeConsistent && !StateConsistency.Acceptable(k.state) ==>
      e == Some(StateInconsistent(k.state))
    ensures ((scope == Test || k.metadataClean) && k.sizeConsistent && StateConsistency.Acceptable(k.state)
             && !k.beforeIndexDeletion) ==> e == Some(BeforeIndexDeletionFailed)
    ensures ((scope == Test || k.metadataClean) && k.sizeConsistent && StateConsistency.Acceptable(k.state)
             && k.beforeIndexDeletion && !k.wiped) ==> e == Some(WipeFailed)
    ensures PreCloseChecksPass(scope, k) && closes && !k.closed ==> e == Some(ClusterCloseFailed)
    ensures PreCloseChecksPass(scope, k) && (closes ==> k.closed) && !k.afterTest ==> e == Some(AfterTestFailed)
  {
    if scope != Test && !k.metadataClean then Some(LeftoverMetadata)
    else if !k.sizeConsistent then Some(SizeInconsistent)
    else if !StateConsistency.Acceptable(k.state) then Some(StateInconsistent(k.state))
    else if !k.beforeIndexDeletion then Some(BeforeIndexDeletionFailed)
    else if !k.wiped then Some(WipeFailed)
    else if closes && !k.closed then Some(ClusterCloseFailed)
    else if !k.afterTest then Some(AfterTestFailed)
    else None
  }

  /** Whether the registry clear that ends a test-scoped teardown throws. */
  predicate FinalClearThrows(reg: Registry, scope: Scope, faults: CloseFaults)
  {
    scope == Test && (ClusterCloseThrows(reg, faults) || RestCloseThrows(reg, faults))
  }

  /** afterInternal: reset the disruption scheme of an internal cluster (a failure there skips
      everything else), run the checks against the current cluster (if any), close it when the
      class is finished or the scope is per-test, and in the test scope clear the registry
      whatever the checks said. An exception from that final clear replaces any earlier one. */
  function AfterInternal(reg: Registry, current: Option<Handle>, scope: Scope, afterClass: bool,
                         checks: TeardownChecks, faults: CloseFaults): (s: Step)
    ensures Valid(reg) && (current.Some? ==> current.value.id < reg.nextId) ==> Valid(s.reg)
    ensures s.reg.nextId == reg.nextId
    ensures !DisruptionStepPasses(current, checks) ==> s == Step(reg, Fail(DisruptionNotCleared))
    ensures DisruptionStepPasses(current, checks) && scope == Test && !ClusterCloseThrows(reg, faults) ==>
      s.reg.clusters == map[]
    ensures DisruptionStepPasses(current, checks) && scope == Test ==> CachedIds(reg.clusters) <= s.reg.closed
    ensures scope == Suite ==> s.reg.clusters == reg.clusters
    ensures scope == Suite && !afterClass ==> s.reg == reg
    ensures (current.Some? && DisruptionStepPasses(current, checks) && PreCloseChecksPass(scope, checks)
             && (afterClass || scope == Test)) ==>
      current.value.id in s.reg.closed
    ensures current.Some? && !PreCloseChecksPass(scope, checks) && scope == Suite ==> s.reg == reg
    // the outcome: the disruption reset, then the final clear, then the first failing check
    ensures DisruptionStepPasses(current, checks) && scope == Test && ClusterCloseThrows(reg, faults) ==>
      s.outcome == Fail(CloseFailed)
    ensures (DisruptionStepPasses(current, checks) && scope == Test && !ClusterCloseThrows(reg, faults)
             && RestCloseThrows(reg, faults)) ==>
      s.outcome == Fail(RestClientCloseFailed)
    ensures (DisruptionStepPasses(current, checks) && !FinalClearThrows(reg, scope, faults) && current.Some?
             && FirstFailure(scope, afterClass || scope == Test, checks).Some?) ==>
      s.outcome == Fail(FirstFailure(scope, afterClass || scope == Test, checks).value)
    ensures s.outcome.Pass? <==>
      && DisruptionStepPasses(current, checks)
      && !FinalClearThrows(reg, scope, faults)
      && (current.Some? ==>
            PreCloseChecksPass(scope, checks) && ((afterClass || scope == Test) ==> checks.closed) && checks.afterTest)
    ensures s.outcome.Pass? ==>
      current.None? || (DisruptionStepPasses(current, checks) && PreCloseChecksPass(scope, checks)
                        && ((afterClass || scope == Test) ==> checks.closed) && checks.afterTest)
    ensures current.Some? && checks.state.Mismatch? ==> s.outcome.Fail?
  {
    if !DisruptionStepPasses(current, checks) then Step(reg, Fail(DisruptionNotCleared))
    else
      var closing := current.Some? && PreCloseChecksPass(scope, checks) && (afterClass || scope == Test);
      var afterClose := if closing then reg.(closed := reg.closed + {current.value.id}) else reg;
      var failure := if current.Some? then FirstFailure(scope, afterClass || scope == Test, checks) else None;
      if scope == Test then
        var cleared := ClearClusters(afterClose, faults);
        if cleared.outcome.Fail? then cleared
        else if failure.Some? then Step(cleared.reg, Fail(failure.value))
        else Step(cleared.reg, Pass)
      else if failure.Some? then Step(afterClose, Fail(failure.value))
      else Step(afterClose, Pass)
  }

  /** afterClass: a suite-scoped test class tears its single shared instance down now and, if
      that returns normally, checks the static state it leaves behind; any other class only
      clears the registry. */
  function AfterClass(reg: Registry, current: Option<Handle>, suiteScopedInstance: bool, scope: Scope,
                      checks: TeardownChecks, staticStateClean: bool, faults: CloseFaults): (s: Step)
    ensures !suiteScopedInstance && !faults.cluster ==> s.reg.clusters == map[]
    ensures !suiteScopedInstance && !faults.cluster && !faults.restClient ==> s.outcome.Pass?
    ensures !suiteScopedInstance ==>
      (s.outcome.Pass? <==> !ClusterCloseThrows(reg, faults) && !RestCloseThrows(reg, faults))
    ensures !suiteScopedInstance ==> s == ClearClusters(reg, faults)
    ensures CachedIds(reg.clusters) <= s.reg.closed || suiteScopedInstance
    ensures (suiteScopedInstance && current.Some? && DisruptionStepPasses(current, checks)
             && PreCloseChecksPass(scope, checks)) ==> current.value.id in s.reg.closed
    ensures suiteScopedInstance ==> s.reg == AfterInternal(reg, current, scope, true, checks, faults).reg
    ensures suiteScopedInstance && s.outcome != Fail(StaticStateDirty) ==>
      s == AfterInternal(reg, current, scope, true, checks, faults)
    ensures suiteScopedInstance && s.outcome.Pass? ==> staticStateClean
    ensures s.outcome == Fail(StaticStateDirty) <==>
      suiteScopedInstance && !staticStateClean && AfterInternal(reg, current, scope, true, checks, faults).outcome.Pass?
  {
    if suiteScopedInstance then
      var torn := AfterInternal(reg, current, scope, true, checks, faults);
      if torn.outcome.Pass? && !staticStateClean then Step(torn.reg, Fail(StaticStateDirty)) else torn
    else
      ClearClusters(reg, faults)
  }

  /** beforeInternal's cluster step: resolve the scope from the class chain, use the suite
      seed for a suite cluster and a fresh seed for a test cluster, and acquire the cluster. */
  function BeforeInternal(reg: Registry, clazz: ClassId, chain: seq<ClassLink>, defaults: ClusterDefaults,
                          suiteSeed: int, testSeed: int, env: ExternalEnv, faults: CloseFaults): (a: Acquired)
    ensures Valid(reg) ==> Valid(a.reg)
    ensures a.result.Ok? ==> a.reg.clusters == map[clazz := a.result.value]
    ensures ResolveConfig(chain, defaults).scope == Suite && clazz in reg.clusters && a.result.Ok? ==>
      a.result.value == reg.clusters[clazz]
    ensures (ResolveConfig(chain, defaults).scope == Test || clazz !in reg.clusters) && a.result.Ok? ==>
      a.result.value.id == reg.nextId
    ensures (ResolveConfig(chain, defaults).scope == Test || clazz !in reg.clusters) && a.result.Ok?
            && a.result.value.spec.Internal? ==>
      && a.result.value.spec.scope == ResolveConfig(chain, defaults).scope
      && a.result.value.spec.seed == (if ResolveConfig(chain, defaults).scope == Suite then suiteSeed else testSeed)
  {
    var config := ResolveConfig(chain, defaults);
    var seed := if config.scope == Suite then suiteSeed else testSeed;
    BuildAndPutCluster(reg, clazz, config.scope, BuildTestCluster(config.scope, config, seed, env), faults)
  }

  /** Suite scope across two tests: the cluster the first test got is the one the second test
      gets, whatever the first test's checks said, and it has not been closed in between. */
  lemma {:induction false} SuiteClusterSurvivesBetweenTests(reg: Registry, clazz: ClassId, build1: Result<ClusterSpec, BuildError>,
                                                           build2: Result<ClusterSpec, BuildError>, checks: TeardownChecks,
                                                           faults: CloseFaults)
    requires Valid(reg)
    requires BuildAndPutCluster(reg, clazz, Suite, build1, faults).result.Ok?
    ensures
      var first := BuildAndPutCluster(reg, clazz, Suite, build1, faults);
      var after := AfterInternal(first.reg, Some(first.result.value), Suite, false, checks, faults);
      var second := BuildAndPutCluster(after.reg, clazz, Suite, build2, faults);
      && second.result == first.result
      && (first.result.value.id in second.reg.closed <==> first.result.value.id in reg.closed)
  {
    var first := BuildAndPutCluster(reg, clazz, Suite, build1, faults);
    var after := AfterInternal(first.reg, Some(first.result.value), Suite, false, checks, faults);
    assert after.reg == first.reg;
    assert after.reg.clusters - {clazz} == map[];
  }

  /** Test scope across two tests: the second test gets a cluster different from the first,
      and the first one has been closed by then. */
  lemma {:induction false} TestClusterRebuiltEachTest(reg: Registry, clazz: ClassId, build1: Result<ClusterSpec, BuildError>,
                                                     build2: Result<ClusterSpec, BuildError>, checks: TeardownChecks,
                                                     faults: CloseFaults)
    requires Valid(reg)
    requires BuildAndPutCluster(reg, clazz, Test, build1, faults).result.Ok?
    ensures
      var first := BuildAndPutCluster(reg, clazz, Test, build1, faults);
      var after := AfterInternal(first.reg, Some(first.result.value), Test, false, checks, faults);
      var second := BuildAndPutCluster(after.reg, clazz, Test, build2, faults);
      && first.result.value.id in second.reg.closed
      && (second.result.Ok? ==> second.result.value.id != first.result.value.id)
  {
    var first := BuildAndPutCluster(reg, clazz, Test, build1, faults);
    var h := first.result.value;
    assert first.reg.clusters == map[clazz := h];
    assert clazz in first.reg.clusters && first.reg.clusters[clazz].id == h.id;
    assert h.id in CachedIds(first.reg.clusters);
    var after := AfterInternal(first.reg, Some(h), Test, false, checks, faults);
    assert after.reg.nextId == h.id + 1;
    var second := BuildAndPutCluster(after.reg, clazz, Test, build2, faults);
    if DisruptionStepPasses(Some(h), checks) {
      assert h.id in after.reg.closed;
    } else {
      // the reset threw before anything was cleared: the next build closes the cached cluster
      assert after.reg == first.reg;
      assert after.reg.clusters - {clazz} == map[];
      assert !ClearThrows(after.reg, clazz, faults);
    }
    assert h.id in second.reg.closed;
  }
}

=== FILE: scopes.dfy ===
/**
 * How a test class chooses its cluster: the ClusterScope annotation found on the
 * nearest class of its superclass chain, the configuration resolved from it, and the
 * decision buildTestCluster makes between an external and an internal cluster.
 */
module ClusterScopes {
  import opened Common

  /** Lifetime of a test cluster: shared by every test of a class, or rebuilt for each test. */
  datatype Scope = Suite | Test

  /** The attributes of one ClusterScope annotation as written on a class. */
  datatype ClusterScopeAnnotation = ClusterScopeAnnotation(
    scope: Scope,
    numDataNodes: int,
    minNumDataNodes: int,
    maxNumDataNodes: int,
    supportsDedicatedMasters: bool,
    autoManageMasterNodes: bool,
    numClientNodes: int)

  /** Defaults owned by the internal cluster implementation, which is not part of this model. */
  datatype ClusterDefaults = ClusterDefaults(minNumDataNodes: int, maxNumDataNodes: int, numClientNodes: int)

  /** One class of a superclass chain, the test class first. `isRoot` marks Object and the
      integration-test base class itself: the annotation walk stops there. */
  datatype ClassLink = ClassLink(isRoot: bool, annotation: Option<ClusterScopeAnnotation>)

  /** The configuration every cluster-building decision reads, resolved once from the chain. */
  datatype ClusterConfig = ClusterConfig(
    scope: Scope,
    supportsDedicatedMasters: bool,
    autoManageMasterNodes: bool,
    numDataNodes: int,
    minNumDataNodes: int,
    maxNumDataNodes: int,
    numClientNodes: int)

  /** Position `i` holds the annotation the walk returns: it is annotated, no class up to and
      including it stops the walk, and no class before it is annotated. */
  ghost predicate NearestAnnotated(chain: seq<ClassLink>, i: int)
  {
    && 0 <= i < |chain|
    && chain[i].annotation.Some?
    && (forall j :: 0 <= j <= i ==> !chain[j].isRoot)
    && (forall j :: 0 <= j < i ==> chain[j].annotation.None?)
  }

  /** The superclass walk: the nearest annotation below the root wins. */
  function GetAnnotation(chain: seq<ClassLink>): (r: Option<ClusterScopeAnnotation>)
    ensures r.Some? <==> exists i :: NearestAnnotated(chain, i)
    ensures forall i :: NearestAnnotated(chain, i) ==> r == chain[i].annotation
  {
    if |chain| == 0 || chain[0].isRoot then None
    else if chain[0].annotation.Some? then
      assert NearestAnnotated(chain, 0);
      chain[0].annotation
    else
      var rest := GetAnnotation(chain[1..]);
      assert forall i :: NearestAnnotated(chain, i) ==> i >= 1 && NearestAnnotated(chain[1..], i - 1);
      assert forall i :: NearestAnnotated(chain[1..], i) ==> NearestAnnotated(chain, i + 1);
      rest
  }

  /** The scope used when no class of the chain is annotated, and the value an annotation
      attribute of -1 stands for. */
  const DefaultScope: Scope := Suite
  const Unset: int := -1

  /** Every getter of the base class at once: each reads the nearest annotation and falls back
      to its own default when there is none (and, for the node bounds, when it says -1). */
  function ResolveConfig(chain: seq<ClassLink>, defaults: ClusterDefaults): (c: ClusterConfig)
    ensures (forall i :: !NearestAnnotated(chain, i)) ==>
      c == ClusterConfig(Suite, true, true, -1, defaults.minNumDataNodes, defaults.maxNumDataNodes, defaults.numClientNodes)
    ensures forall i :: NearestAnnotated(chain, i) ==>
      var a := chain[i].annotation.value;
      && c.scope == a.scope
      && c.supportsDedicatedMasters == a.supportsDedicatedMasters
      && c.autoManageMasterNodes == a.autoManageMasterNodes
      && c.numDataNodes == a.numDataNodes
      && c.minNumDataNodes == (if a.minNumDataNodes == -1 then defaults.minNumDataNodes else a.minNumDataNodes)
      && c.maxNumDataNodes == (if a.maxNumDataNodes == -1 then defaults.maxNumDataNodes else a.maxNumDataNodes)
      && c.numClientNodes == a.numClientNodes
  {
    match GetAnnotation(chain)
    case None =>
      ClusterConfig(DefaultScope, true, true, Unset, defaults.minNumDataNodes, defaults.maxNumDataNodes,
                    defaults.numClientNodes)
    case Some(a) =>
      ClusterConfig(
        a.scope, a.supportsDedicatedMasters, a.autoManageMasterNodes, a.numDataNodes,
        if a.minNumDataNodes == Unset then defaults.minNumDataNodes else a.minNumDataNodes,
        if a.maxNumDataNodes == Unset then defaults.maxNumDataNodes else a.maxNumDataNodes,
        a.numClientNodes)
  }

  /** An unannotated subclass inherits whatever its superclass chain resolves to. */
  lemma {:induction false} UnannotatedSubclassInherits(chain: seq<ClassLink>, defaults: ClusterDefaults)
    ensures ResolveConfig([ClassLink(false, None)] + chain, defaults) == ResolveConfig(chain, defaults)
  {
    var ext := [ClassLink(false, None)] + chain;
    assert ext[1..] == chain;
  }

  /** An annotation on the test class itself overrides everything above it. */
  lemma {:induction false} AnnotatedSubclassOverrides(a: ClusterScopeAnnotation, chain: seq<ClassLink>,
                                                     other: seq<ClassLink>, defaults: ClusterDefaults)
    ensures ResolveConfig([ClassLink(false, Some(a))] + chain, defaults)
         == ResolveConfig([ClassLink(false, Some(a))] + other, defaults)
  {
    assert NearestAnnotated([ClassLink(false, Some(a))] + chain, 0);
    assert NearestAnnotated([ClassLink(false, Some(a))] + other, 0);
  }

  /** A class that stops the walk or is annotated decides it, whatever follows. */
  lemma WalkDecidedByHead(c1: seq<ClassLink>, c2: seq<ClassLink>)
    requires |c1| > 0 && |c2| > 0 && c1[0] == c2[0]
    requires c1[0].isRoot || c1[0].annotation.Some?
    ensures GetAnnotation(c1) == GetAnnotation(c2)
  {
  }

  /** An unannotated class below the root passes the walk on to its superclass. */
  lemma WalkSkipsHead(chain: seq<ClassLink>)
    requires |chain| > 0 && !chain[0].isRoot && chain[0].annotation.None?
    ensures GetAnnotation(chain) == GetAnnotation(chain[1..])
  {
  }

  /** The annotation walk stops at the base class: nothing above position `r`, where the
      root sits, is read. */
  lemma {:induction false} RootEndsAnnotationWalk(chain: seq<ClassLink>, r: nat)
    requires r < |chain| && chain[r].isRoot
    ensures GetAnnotation(chain) == GetAnnotation(chain[..r + 1])
    decreases r
  {
    var cut := chain[..r + 1];
    assert cut[0] == chain[0];
    if chain[0].isRoot || chain[0].annotation.Some? {
      WalkDecidedByHead(chain, cut);
    } else {
      RootEndsAnnotationWalk(chain[1..], r - 1);
      assert cut[1..] == chain[1..][..r];
      WalkSkipsHead(chain);
      WalkSkipsHead(cut);
    }
  }

  /** Annotations on the base class or above it are never read. */
  lemma RootEndsWalk(below: seq<ClassLink>, root: ClassLink, above: seq<ClassLink>, defaults: ClusterDefaults)
    requires root.isRoot
    ensures ResolveConfig(below + [root] + above, defaults) == ResolveConfig(below + [root], defaults)
  {
    var chain := below + [root] + above;
    assert chain[|below|] == root;
    assert chain[..|below| + 1] == below + [root];
    RootEndsAnnotationWalk(chain, |below|);
  }

  /** Node-name prefixes of suite and test clusters. */
  const SuiteClusterNodePrefix: string := "node_s"
  const TestClusterNodePrefix: string := "node_t"

  /** The node-name prefix buildTestCluster picks for a scope. */
  function NodePrefix(scope: Scope): (p: string)
    ensures p == TestClusterNodePrefix <==> scope == Test
    ensures p == SuiteClusterNodePrefix <==> scope == Suite
  {
    match scope
    case Test => TestClusterNodePrefix
    case Suite => SuiteClusterNodePrefix
  }

  /** The data-node range handed to the internal cluster: a fixed count pins both ends,
      otherwise the resolved minimum and maximum are used. */
  function DataNodeRange(c: ClusterConfig): (r: (int, int))
    ensures c.numDataNodes >= 0 ==> r.0 == r.1 == c.numDataNodes
    ensures c.numDataNodes < 0 ==> r == (c.minNumDataNodes, c.maxNumDataNodes)
  {
    if c.numDataNodes >= 0 then (c.numDataNodes, c.numDataNodes)
    else (c.minNumDataNodes, c.maxNumDataNodes)
  }

  /** A fixed data-node count makes the annotated minimum and maximum irrelevant. */
  lemma FixedCountIgnoresBounds(c: ClusterConfig, lo: int, hi: int)
    requires c.numDataNodes >= 0
    ensures DataNodeRange(c.(minNumDataNodes := lo, maxNumDataNodes := hi)) == DataNodeRange(c)
  {
  }

  /** The system properties that select an external cluster: the address list and the cluster
      name, each "" when unset, and whether the test class ignores an external cluster. */
  datatype ExternalEnv = ExternalEnv(clusterAddresses: string, clusterName: string, ignoreExternalCluster: bool)

  /** What buildTestCluster asks to be started. */
  datatype ClusterSpec =
    | External(addresses: string, name: string)
    | Internal(seed: int, scope: Scope, supportsDedicatedMasters: bool, autoManageMasterNodes: bool,
               minNumDataNodes: int, maxNumDataNodes: int, numClientNodes: int, nodePrefix: string)

  datatype BuildError = TestScopeWithExternalCluster | MissingExternalClusterName

  /** Whether the environment points the test at an external cluster. */
  predicate UsesExternal(env: ExternalEnv)
  {
    |env.clusterAddresses| > 0 && !env.ignoreExternalCluster
  }

  /** buildTestCluster: an external cluster when one is configured (refused for the test scope
      and when the cluster name is missing), otherwise an internal one built from the config. */
  function BuildTestCluster(scope: Scope, c: ClusterConfig, seed: int, env: ExternalEnv): (r: Result<ClusterSpec, BuildError>)
    ensures r.Err? <==> UsesExternal(env) && (scope == Test || |env.clusterName| == 0)
    ensures r.Err? && scope == Test ==> r.error == TestScopeWithExternalCluster
    ensures r.Err? && scope == Suite ==> r.error == MissingExternalClusterName
    ensures r.Ok? && r.value.External? ==> r.value == External(env.clusterAddresses, env.clusterName)
    ensures r.Ok? ==> (r.value.External? <==> UsesExternal(env))
    ensures r.Ok? && r.value.Internal? ==>
      && r.value.seed == seed
      && r.value.scope == scope
      && r.value.nodePrefix == NodePrefix(scope)
      && (r.value.minNumDataNodes, r.value.maxNumDataNodes) == DataNodeRange(c)
      && r.value.supportsDedicatedMasters == c.supportsDedicatedMasters
      && r.value.autoManageMasterNodes == c.autoManageMasterNodes
      && r.value.numClientNodes == c.numClientNodes
  {
    if UsesExternal(env) then
      if scope == Test then Err(TestScopeWithExternalCluster)
      else if |env.clusterName| == 0 then Err(MissingExternalClusterName)
      else Ok(External(env.clusterAddresses, env.clusterName))
    else
      var range := DataNodeRange(c);
      Ok(Internal(seed, scope, c.supportsDedicatedMasters, c.autoManageMasterNodes, range.0, range.1,
                  c.numClientNodes, NodePrefix(scope)))
  }
}
